=== FILE: README.md ===
# Life event logger: a Dafny model of its client-side logic

The application records when recurring life events happen ("loggable
events"), groups them under labels, and warns when an event has not been
logged for a while. This project models the logic behind its React and
Apollo code as pure functions over immutable records and sequences, and
proves properties about that logic:

- **The event and label store** (`LoggableEventsProvider`). It covers creating
  an event in front of the list, adding a date and keeping the dates
  newest-first, updating an event's details, removing an event, and creating,
  renaming and deleting labels. `Timestamps` models the newest-first date
  ordering.
- **The edit form** (`EditEventCard`). It covers name validity, the error
  message chosen, the threshold that is saved, the form's initial state, and
  what a submit asks of the store.
- **The event list** (`LoggableEventsList`). It shows placeholder cards while
  loading, and otherwise the events that carry the active label.
- **The label picker** (`EventLabelAutocomplete`). It covers the options
  offered, the "create new label" marker, and how a change maps the picked
  values back to labels and label creation requests.
- **The event card** (`LoggableEventCard`). It covers converting the server's
  fragment into an event, the labels shown, the last record that is not in
  the future, the records listed, and when "Log Today" or a date in the
  picker is disabled.
- **The mutation hooks** (`UseEventLabels`, `UseLoggableEvents`). They cover
  optimistic responses, the cache `update` callbacks after a create and a
  delete, and the wrappers' result and error rules. The cache is the abstract
  per-user view in `ApolloCache`. The error rule shared by every wrapper is
  in `Mutations`.
- **The Apollo client** (`ApolloClient`). It covers the offline mock link's
  dispatch and payloads, and the choice between that link and the HTTP link.

Some values come from code that is not part of this model. Each one is a
parameter:

- Dates are integers in milliseconds.
- uuids, `Date.now()` and ISO date strings.
- The day difference between two dates and the calendar day of a date.
- The label-name validator.
- The awaited GraphQL mutations. Each is a function from the variables sent
  to how the mutation settled.

The date comparator used for sorting is not modelled as a parameter. Any
newest-first sort of the same dates gives the same sequence
(`Timestamps.SortedPermutationUnique`), so the model sorts by insertion.

The source files come from versions of the application that have drifted
apart. Each module keeps the record shape its file uses:

- The store's labels have `alias` and `colorAlias`.
- The list, card and picker use labels with a `name`, and events whose
  `labelIds` may be `null` (module `Types`).

The hooks follow their own code: outside offline mode a failed mutation is
rethrown, not turned into `null`.

One behaviour is visible in the mock link. The mock create payloads spread
the input after computing the id, so an input that carries an `id` key always
keeps that value, even when the value is empty. `ApolloClient.MockCreateLoggableEvent`
states the id exactly as the code computes it.

## Model

| member | source | states |
|---|---|---|
| LoggableEventsProvider.CreateLoggableEvent | src/providers/LoggableEventsProvider.tsx:175-186 | the list grows by one; the new event is first and the previous list follows unchanged; the event has no dates, is active, and has the given name, threshold and label ids; its id is the server's id when that is non-empty, else the fresh uuid |
| LoggableEventsProvider.AddTimestampToEvent | src/providers/LoggableEventsProvider.tsx:192-203 | events with another id are untouched; the matching event changes only in its dates; its dates are newest-first and are exactly the old dates plus the new one, as a multiset |
| LoggableEventsProvider.AddTimestampUnknownId | src/providers/LoggableEventsProvider.tsx:193-196 | adding a date under an id no event has leaves the list as it was |
| LoggableEventsProvider.AddTimestampInsertsInPlace | src/providers/LoggableEventsProvider.tsx:198-201 | when the dates were already newest-first, the new date is inserted at its place |
| LoggableEventsProvider.UpdateLoggableEventDetails | src/providers/LoggableEventsProvider.tsx:209-227 | only the matching event changes; only its name, active flag, threshold and label ids change, and they take the given values; id and dates are kept |
| LoggableEventsProvider.UpdateDetailsIdempotent | src/providers/LoggableEventsProvider.tsx:216-227 | applying the same details update twice equals applying it once |
| LoggableEventsProvider.RemoveLoggableEvent | src/providers/LoggableEventsProvider.tsx:237 | no event with the id remains; every other event keeps its multiplicity; the result is an ordered subsequence of the input |
| LoggableEventsProvider.CreateThenRemove | src/providers/LoggableEventsProvider.tsx:175-237 | removing a just-created event whose id is new gives back the previous list |
| LoggableEventsProvider.CreateEventLabel | src/providers/LoggableEventsProvider.tsx:243-252 | the new label is appended after the unchanged existing ones, with the given alias and colour; its id is the server's when non-empty, else the fresh uuid |
| LoggableEventsProvider.UpdateEventLabel | src/providers/LoggableEventsProvider.tsx:256-268 | only labels with the id change, and only in alias and colour alias |
| LoggableEventsProvider.DeleteEventLabel | src/providers/LoggableEventsProvider.tsx:275 | exactly the labels with the id are gone; the others keep their order and multiplicity |
| LoggableEventsProvider.CreateLabelThenDelete | src/providers/LoggableEventsProvider.tsx:243-275 | deleting a just-created label whose id is new gives back the previous labels |
| LoggableEventsProvider.StepPreservesUniqueIds | src/providers/LoggableEventsProvider.tsx:168-276 | every store update keeps event ids and label ids unique, provided creations receive an unused id |
| Timestamps.Insert | src/providers/LoggableEventsProvider.tsx:200 | inserting into a newest-first list keeps it newest-first and adds exactly the one date |
| Timestamps.SortNewestFirst | src/providers/LoggableEventsProvider.tsx:200 | the sort result is newest-first and a permutation of its input |
| Timestamps.SortedPermutationUnique | src/providers/LoggableEventsProvider.tsx:60-62 | two newest-first orderings of the same dates are equal, so the sorted order does not depend on the sort algorithm |
| Timestamps.SortKeepsSorted | src/providers/LoggableEventsProvider.tsx:200 | sorting dates that are already newest-first changes nothing |
| Timestamps.SortAppendedIsInsert | src/providers/LoggableEventsProvider.tsx:200 | sorting `dates + [d]` equals inserting `d` into the sorted dates |
| EditEventCard.EventToEdit | src/components/EventCards/EditEventCard.tsx:70 | the first event with the id when one exists, else the store's defaults |
| EditEventCard.NameAlreadyExists | src/components/EventCards/EditEventCard.tsx:78-80 | true iff an event whose id differs from the edited id has the typed name |
| JsValues.JsLength | src/components/EventCards/EditEventCard.tsx:77 | `.length` counts UTF-16 code units: at least one and at most two per character, zero only for the empty string, one per character when all lie in the Basic Multilingual Plane |
| EditEventCard.NameIsValid | src/components/EventCards/EditEventCard.tsx:81-82 | valid iff the name is non-empty, at most 25 UTF-16 code units long, and no event with a different id has it |
| EditEventCard.NameErrorToShow | src/components/EventCards/EditEventCard.tsx:85-96 | "too long" iff the name is over 25 UTF-16 code units; "already exists" iff it is not too long and is another event's name |
| EditEventCard.EmojiNameIsTooLong | src/components/EventCards/EditEventCard.tsx:77-89 | a name of thirteen emoji (26 code units) is reported as too long and cannot be saved |
| EditEventCard.NoMessageIffValidOrEmpty | src/components/EventCards/EditEventCard.tsx:77-96 | no message iff the name is valid, or empty and not another event's name, so an empty name blocks saving without a message |
| EditEventCard.OwnNameIsNotDuplicate | src/components/EventCards/EditEventCard.tsx:78-80 | when editing, the event's own unchanged name never counts as taken |
| EditEventCard.InitialWarningIsEnabled | src/components/EventCards/EditEventCard.tsx:102-104 | the warning starts on iff editing an event whose threshold is positive |
| EditEventCard.DefaultWarningThreshold | src/components/EventCards/EditEventCard.tsx:105-107 | 7 for a new event, otherwise the edited event's threshold |
| EditEventCard.WarningThresholdValueToSave | src/components/EventCards/EditEventCard.tsx:110 | 0 while the warning is off, otherwise the entered value |
| EditEventCard.ActiveEventLabel | src/components/EventCards/EditEventCard.tsx:115 | none when no label id is active; otherwise the first known label with the active id, and none iff no known label has it |
| EditEventCard.InitialSelectedLabels | src/components/EventCards/EditEventCard.tsx:119-125 | just the active label when creating under one; otherwise exactly the known labels whose id the event carries, in label-list order and with their multiplicity |
| EditEventCard.InitialShowLabelInput | src/components/EventCards/EditEventCard.tsx:116-118 | when creating, open iff a label is active; when editing, open iff the event has label ids |
| EditEventCard.Submit | src/components/EventCards/EditEventCard.tsx:147-170 | no call iff the name is invalid; a create carries the typed name, the threshold to save and the selected ids; an update keeps the event's id, dates and active flag and carries the same three values |
| EditEventCard.InvalidSubmitChangesNothing | src/components/EventCards/EditEventCard.tsx:149 | a submit with an invalid name leaves the events as they were |
| EditEventCard.SubmitKeepsNamesDistinct | src/components/EventCards/EditEventCard.tsx:147-170 | starting from distinct names and unique non-empty ids, any submit leaves the names distinct |
| EditEventCard.UntouchedEditKeepsDetails | src/components/EventCards/EditEventCard.tsx:159-170 | saving an untouched edit form updates the event with its own name and threshold, and the known labels it carries |
| LoggableEventsList.FilteredEvents | src/components/LoggableEventsList.tsx:34-36 | with no active label (absent or empty id), all events unchanged; otherwise exactly the events whose non-null label ids contain it, in order and with their multiplicities |
| LoggableEventsList.NullLabelIdsExcluded | src/components/LoggableEventsList.tsx:35 | an event with null label ids is never shown while a label is active |
| LoggableEventsList.UnknownLabelShowsNothing | src/components/LoggableEventsList.tsx:34-36 | a label id that no event carries shows no events |
| LoggableEventsList.Render | src/components/LoggableEventsList.tsx:18-45 | three placeholder items when not loaded and online; otherwise one card per filtered event, in order |
| EventLabelAutocomplete.LabelOptions | src/components/EventCards/EventLabelAutocomplete.tsx:35 | exactly the existing labels whose id no selected label has, in order and with their multiplicity |
| EventLabelAutocomplete.MatchingOptionNames | src/components/EventCards/EventLabelAutocomplete.tsx:39-41 | exactly the unselected labels' names that contain the input, both case-folded, in label order and each as often as an unselected label carries it |
| EventLabelAutocomplete.GetFilteredOptions | src/components/EventCards/EventLabelAutocomplete.tsx:38-52 | the matching names, followed by the create-new option exactly when the input is non-empty, matches no existing name case-insensitively and passes validation |
| EventLabelAutocomplete.EmptyInputOffersAllUnselected | src/components/EventCards/EventLabelAutocomplete.tsx:39-44 | with an empty input, every unselected label's name is offered and no create-new option |
| EventLabelAutocomplete.CreateOptionRoundTrip | src/components/EventCards/EventLabelAutocomplete.tsx:47-78 | the create-new option is last, and stripping its marker gives back the input |
| EventLabelAutocomplete.HandleCreateNewLabel | src/components/EventCards/EventLabelAutocomplete.tsx:54-63 | a creation request for the name iff the validator returns null |
| EventLabelAutocomplete.LabelNamed | src/components/EventCards/EventLabelAutocomplete.tsx:100 | the first existing label with the name; none iff no existing label has it |
| EventLabelAutocomplete.SelectionFromValues | src/components/EventCards/EventLabelAutocomplete.tsx:97-102 | one label per value that is not a marker and names an existing label, in value order, each the first existing label with that name; other values are dropped |
| EventLabelAutocomplete.CreateOptionNames | src/components/EventCards/EventLabelAutocomplete.tsx:76-80 | one name per "create new" value, in order, each the value with its marker removed |
| EventLabelAutocomplete.TypedNewNames | src/components/EventCards/EventLabelAutocomplete.tsx:83-89 | nothing unless the reason is `createOption`; then exactly the values that are not markers, not an existing label's name and not a selected label's name, in order and with their multiplicity |
| EventLabelAutocomplete.CreationRequests | src/components/EventCards/EventLabelAutocomplete.tsx:76-94 | of the marker names followed by the typed new names, exactly those the validator accepts, in that order and with their multiplicity |
| EventLabelAutocomplete.SelectionRoundTrip | src/components/EventCards/EventLabelAutocomplete.tsx:73-102 | with unique names, mapping the selected labels' names back gives the same labels |
| EventLabelAutocomplete.CreateNewValueKeepsSelection | src/components/EventCards/EventLabelAutocomplete.tsx:97-102 | a trailing marker value does not change the selection |
| EventLabelAutocomplete.PickingCreateOption | src/components/EventCards/EventLabelAutocomplete.tsx:74-102 | picking the create-new option keeps the selection and requests the typed name when it is valid |
| EventLabelAutocomplete.OnChange | src/components/EventCards/EventLabelAutocomplete.tsx:74-102 | the selection is exactly `SelectionFromValues` and the requests exactly `CreationRequests`, so at most one selected label per value, each an existing label named by a non-marker value, and every requested name passed the validator |
| LoggableEventCard.CreateLoggableEventFromFragment | src/components/EventCards/LoggableEventCard.tsx:53-70 | copies id, name and threshold; one parsed date per timestamp; label ids are the labels' ids in order, or empty when labels are absent; marked synced |
| LoggableEventCard.EventLabelObjects | src/components/EventCards/LoggableEventCard.tsx:113 | the known labels whose id the event carries, in label-list order and with their multiplicity; none when label ids are null |
| LoggableEventCard.FragmentLabelsShown | src/components/EventCards/LoggableEventCard.tsx:53-113 | a card built from a fragment shows a known label iff the fragment lists a label with its id |
| LoggableEventCard.LastEventRecord | src/components/EventCards/LoggableEventCard.tsx:149-151 | the first record not in the future; absent iff every record is in the future |
| LoggableEventCard.DaysSinceLastEvent | src/components/EventCards/LoggableEventCard.tsx:152 | undefined iff every record is in the future; otherwise the day difference from the last record to now, which is not negative |
| LoggableEventCard.LogTodayDisabledIffLoggedToday | src/components/EventCards/LoggableEventCard.tsx:194 | `LogTodayDisabled` (the days-since value is 0): with newest-first records, "Log Today" is disabled iff some record is from today |
| LoggableEventCard.RecordsToDisplay | src/components/EventCards/LoggableEventCard.tsx:271-279 | the first five records, or all when there are fewer; the "up to 5 most recent" note (`ShowsCappedNote`) shows iff five records are listed |
| LoggableEventCard.ShouldDisableDate | src/components/EventCards/LoggableEventCard.tsx:243-247 | a picker date is disabled iff some record falls on its calendar day |
| LoggableEventCard.DateToLog | src/components/EventCards/LoggableEventCard.tsx:117-118 | the picked date, or the current date when none was picked |
| ApolloCache.AppendRef | src/hooks/useEventLabels.ts:67-78 | for a cached user, the reference is appended after the unchanged existing ones and the entity is written; other users and fields are untouched; an uncached user leaves the cache unchanged |
| ApolloCache.RemoveRefs | src/hooks/useEventLabels.ts:104-113 | for a cached user, exactly the references with other ids remain, in order and with their multiplicity; other users and fields are untouched |
| ApolloCache.Evict | src/hooks/useEventLabels.ts:116 | the entity is gone, other entities and the user lists stay |
| ApolloCache.RemoveAfterAppend | src/hooks/useEventLabels.ts:63-113 | removing an id right after appending it, when it was new, restores the user lists |
| ApolloCache.AfterCreate | src/hooks/useLoggableEvents.ts:102-117 | without a payload or a user id, or for an uncached user, nothing changes; otherwise the created id is appended to that user's list and the entity is written |
| ApolloCache.AfterDelete | src/hooks/useLoggableEvents.ts:142-158 | without a payload or a user id nothing changes; otherwise the entity is evicted and that user's list keeps exactly the other ids, in order and with their multiplicity |
| ApolloCache.DeleteUndoesCreate | src/hooks/useLoggableEvents.ts:102-158 | the delete callback right after the create callback for a new entity gives back the cache |
| Mutations.ReturnPayload | src/hooks/useEventLabels.ts:121-157 | the payload or null on success; null on failure offline; on failure online the same error is thrown |
| Mutations.ReturnTrue | src/hooks/useEventLabels.ts:159-173 | true on success and on failure offline; throws the error iff it failed online |
| Mutations.TempId | src/hooks/useEventLabels.ts:58 | starts with `temp-`, and removing that prefix gives back the uuid |
| UseEventLabels.OptimisticCreate | src/hooks/useEventLabels.ts:55-62 | a `temp-` id, the typed name and the current time |
| UseEventLabels.OptimisticUpdate | src/hooks/useEventLabels.ts:83-90 | the given id with the new name |
| Mutations.OptimisticDelete | src/hooks/useEventLabels.ts:94-98 | echoes the deleted id |
| UseEventLabels.UpdateAfterCreate | src/hooks/useEventLabels.ts:63-79 | appends the label's id at the end of the user's `eventLabels` and leaves everything else alone; a no-op without a payload or a user id |
| UseEventLabels.UpdateAfterDelete | src/hooks/useEventLabels.ts:100-117 | drops every reference to the id from the user's `eventLabels`, keeping the rest in order and with their multiplicity, and evicts the label; a no-op without a payload or a user id |
| UseEventLabels.CreateThenDeleteRestoresCache | src/hooks/useEventLabels.ts:63-117 | deleting a label just created for the same user gives back the cache |
| UseEventLabels.CreateEventLabel | src/hooks/useEventLabels.ts:121-141 | sends the name with a `temp-` id; throws iff the mutation failed online; any label returned is the mutation's payload |
| UseEventLabels.UpdateEventLabel | src/hooks/useEventLabels.ts:143-157 | sends id and input; throws iff the mutation failed online; any label returned is the mutation's payload |
| UseEventLabels.DeleteEventLabel | src/hooks/useEventLabels.ts:159-173 | returns true unless the mutation failed online, in which case it throws |
| UseEventLabels.OfflineCreateKeepsTemporaryId | src/apollo/client.ts:61-72 | offline, the mock answer to this hook's create carries the `temp-` id the wrapper sent and the typed name |
| UseEventLabels.Loading | src/hooks/useEventLabels.ts:182 | loading iff one of the three mutation flags is set; idle iff all three are clear |
| UseLoggableEvents.ThresholdOrZero | src/hooks/useLoggableEvents.ts:97 | a missing threshold reads as 0, a given one as itself |
| UseLoggableEvents.OptimisticCreate | src/hooks/useLoggableEvents.ts:91-101 | a `temp-` id, the typed name, no records, the threshold or 0, no labels |
| UseLoggableEvents.OptimisticUpdate | src/hooks/useLoggableEvents.ts:122-132 | the given id, the new name, the threshold or 0, no records, no labels |
| UseLoggableEvents.OptimisticAddTimestamp | src/hooks/useLoggableEvents.ts:163-174 | the event id with exactly the one new record, empty name, threshold 0, no labels |
| UseLoggableEvents.OptimisticRemoveTimestamp | src/hooks/useLoggableEvents.ts:178-189 | the event id with no records, empty name, threshold 0, no labels |
| UseLoggableEvents.OptimisticCreateShowsEmptyCard | src/hooks/useLoggableEvents.ts:91-101 | the card built from the optimistic create has the typed name, no records, no labels and no "days since" value |
| UseLoggableEvents.UpdateAfterCreate | src/hooks/useLoggableEvents.ts:102-118 | appends the event's id at the end of the user's `loggableEvents` and leaves everything else alone; a no-op without a payload or a user id |
| UseLoggableEvents.UpdateAfterDelete | src/hooks/useLoggableEvents.ts:142-159 | drops every reference to the id from the user's `loggableEvents`, keeping the rest in order and with their multiplicity, and evicts the event; a no-op without a payload or a user id |
| UseLoggableEvents.CreateThenDeleteRestoresCache | src/hooks/useLoggableEvents.ts:102-159 | deleting an event just created for the same user gives back the cache |
| UseLoggableEvents.CreateLoggableEvent | src/hooks/useLoggableEvents.ts:193-218 | sends name, threshold and label ids with a `temp-` id; throws iff the mutation failed online; any event returned is the mutation's payload |
| UseLoggableEvents.UpdateLoggableEvent | src/hooks/useLoggableEvents.ts:220-234 | sends id and input; throws iff the mutation failed online; any event returned is the mutation's payload |
| UseLoggableEvents.DeleteLoggableEvent | src/hooks/useLoggableEvents.ts:236-250 | returns true unless the mutation failed online, in which case it throws |
| UseLoggableEvents.ChangeTimestamp | src/hooks/useLoggableEvents.ts:252-288 | adding and removing a record send the event id and the ISO date; they throw iff the mutation failed online; any event returned is the mutation's payload |
| UseLoggableEvents.OfflineCreateKeepsTemporaryId | src/apollo/client.ts:33-46 | offline, the mock answer to this hook's create carries the `temp-` id the wrapper sent and the typed name, and no labels even when label ids were sent |
| UseLoggableEvents.Loading | src/hooks/useLoggableEvents.ts:301-302 | loading iff one of the five mutation flags is set; idle iff all five are clear |
| ApolloClient.ServerId | src/apollo/client.ts:39 | starts with `server-`, and its digits read back as the current time |
| ApolloClient.ServerIdsDistinct | src/apollo/client.ts:39 | ids made at different times differ |
| ApolloClient.DecimalRoundTrip | src/apollo/client.ts:39 | reading back the printed decimal digits of a number gives that number |
| ApolloClient.MockedObject | src/apollo/client.ts:37-43 | the literal with a spread: input fields override the typename and id, and the trailing fields override the input |
| ApolloClient.CreatedId | src/apollo/client.ts:39 | the input's id when it is truthy, else a `server-` id |
| ApolloClient.MockCreateLoggableEvent | src/apollo/client.ts:37-43 | the id is the input's id whenever the input has one, else a `server-` id; `createdAt` is fresh; labels are empty; every other input field is kept |
| ApolloClient.MockUpdateLoggableEvent | src/apollo/client.ts:51-56 | the id is `variables.id` unless the input has an id; the typename is `LoggableEvent` unless the input has one; labels are empty; every other input field is kept |
| ApolloClient.MockCreateEventLabel | src/apollo/client.ts:64-69 | the id is the input's id whenever the input has one, else a `server-` id; the typename is `EventLabel` unless the input has one; `createdAt` is fresh; every other input field is kept |
| ApolloClient.MockUpdateEventLabel | src/apollo/client.ts:77-81 | exactly the keys `__typename`, `id` and the input's; the id is `variables.id` and the typename `EventLabel` unless the input supplies them; input fields are copied |
| ApolloClient.MockMutationResults | src/apollo/client.ts:33-86 | for each of the four known operation names, exactly one data result holding that operation's mock payload; none for any other name; then completion |
| ApolloClient.OfflineMockLink | src/apollo/client.ts:25-93 | a mutation is answered locally; other operations are forwarded, or get an empty observable when there is no next link |
| ApolloClient.ChooseLink | src/apollo/client.ts:129 | the mock link iff offline mode is set |
| ApolloClient.Route | src/apollo/client.ts:92-129 | online every operation goes over HTTP; offline it goes through the mock link as the only link, so nothing is forwarded and a query or subscription gets an empty observable |
| ApolloClient.MockedOnlyOfflineMutations | src/apollo/client.ts:29-129 | a payload is made up locally iff offline mode is set and the operation is one of the four known mutations |

## Left out

- React rendering, styling, ARIA markup, click-away handling, the date picker widget and local toggle state. This is presentation only.
- The store's data-loading effect (`LoggableEventsProvider.tsx` lines 127-161) and the loading indicators. They copy fetched data and switch display state.
- The backend calls the store awaits (`submit*`), and their ordering relative to the state update. A call's response enters the model only as the optional id it returns. `removeLoggableEvent` and `deleteEventLabel` update the state after the call returns, and the model applies the update directly.
- Apollo internals: normalization, `writeFragment`, `identify`, optimistic-layer rollback and merging, and the timing of the `loading` flags. The cache is a map from user id to two lists of referenced ids, plus the set of cached entities.
- `ApolloCache.AppendRef`: Apollo calls a field modifier only for a field the cached user already has. The model gives every cached user both lists, so the `existing = []` default never applies.
- Cache persistence, the HTTP link, the auth header built from `localStorage`, and the client's fetch policies. These are I/O and configuration.
- `ApolloClient.Route`: a query the cache can answer under its fetch policy never reaches the link. The model describes only what reaches the link, so the empty observable offline is what a query gets when the cache cannot answer it.
- uuid generation, `Date.now()`, `new Date()`, `toISOString`, `toDateString`, Moment and time zones. These are parameters.
- The helpers in `utils/time`, `utils/validation` and `utils/types` are not part of this model. Date sorting is replaced by a sort proved equal to any newest-first sort. The day difference, the calendar day and the name validator are parameters.
- `EventLabelAutocomplete.CreationRequests`: the hook's `createEventLabel` in this version takes one argument, so the `onCompleted` callback the picker passes is never called. The model stops at the creation requests and does not add created labels to the selection.
- `LoggableEventCard` calls `deleteLoggableEvent`, which the modelled store does not provide. The card's delete handler is not modelled.
- Case folding (`toLowerCase`) maps only the ASCII letters A-Z.
- `JsValues.JsLength`: strings are sequences of Unicode scalar values, so a lone UTF-16 surrogate cannot occur in the model.
- `ApolloClient.SpreadOf`: spreading a string or an array into an object adds index keys in JavaScript. The model treats every non-object input as contributing no fields.
- `ApolloClient.JsonTruthy`: `NaN` is not among the modelled numbers. Numbers are integers.
- `UseLoggableEvents.ThresholdOrZero`: a `NaN` threshold would also become 0 in the source. The model has no `NaN`.
- The `renderValue` and `renderOption` callbacks of the picker display chips and option text only.

=== FILE: apollo_cache.dfy ===
/**
 * An abstract view of the normalized Apollo cache, just detailed enough for
 * the `update` callbacks of the mutation hooks: each cached user holds the
 * two reference lists `eventLabels` and `loggableEvents`, a reference is the
 * id of the entity it points to, and the cache remembers which entities it
 * holds. Modifying a user that is not in the cache does nothing.
 */
module ApolloCache {
  import opened JsValues
  import Seqs

  /** The normalized key of a cached entity: its `__typename` and `id`. */
  datatype EntityKey = EntityKey(typename: string, id: string)

  /** The reference lists of one cached `User`, each reference given by the id it points to. */
  datatype UserLists = UserLists(eventLabels: seq<string>, loggableEvents: seq<string>)

  /** Which list field of the user a callback modifies. */
  datatype ListField = EventLabels | LoggableEvents

  datatype Cache = Cache(users: map<string, UserLists>, entities: set<EntityKey>)

  function Refs(u: UserLists, field: ListField): seq<string> {
    match field
    case EventLabels => u.eventLabels
    case LoggableEvents => u.loggableEvents
  }

  /** The user lists with one field replaced; the other field is kept. */
  function WithRefs(u: UserLists, field: ListField, refs: seq<string>): (r: UserLists)
    ensures Refs(r, field) == refs
    ensures forall other :: other != field ==> Refs(r, other) == Refs(u, other)
  {
    match field
    case EventLabels => u.(eventLabels := refs)
    case LoggableEvents => u.(loggableEvents := refs)
  }

  /** Nothing but the given field of the given user differs between the two caches. */
  predicate OnlyFieldChanged(c: Cache, c': Cache, userId: string, field: ListField) {
    && c'.users.Keys == c.users.Keys
    && (forall u :: u in c.users && u != userId ==> c'.users[u] == c.users[u])
    && (userId in c.users ==> forall other :: other != field ==>
          Refs(c'.users[userId], other) == Refs(c.users[userId], other))
  }

  /** The user lists with a reference appended at the end of one field. */
  function AppendTo(u: UserLists, field: ListField, id: string): (r: UserLists)
    ensures Refs(r, field) == Refs(u, field) + [id]
    ensures forall other :: other != field ==> Refs(r, other) == Refs(u, other)
  {
    WithRefs(u, field, Refs(u, field) + [id])
  }

  /** Keeps a reference unless it points to the given id. */
  function PointsElsewhere(id: string): string -> bool {
    (x: string) => x != id
  }

  /** The user lists with every reference to an id dropped from one field, the others kept in order. */
  function RemoveFrom(u: UserLists, field: ListField, id: string): (r: UserLists)
    ensures Seqs.IsSubsequence(Refs(r, field), Refs(u, field))
    ensures forall x :: x in Refs(r, field) <==> x in Refs(u, field) && x != id
    ensures forall x :: x != id ==> multiset(Refs(r, field))[x] == multiset(Refs(u, field))[x]
    ensures forall other :: other != field ==> Refs(r, other) == Refs(u, other)
  {
    WithRefs(u, field, Seqs.Filter(PointsElsewhere(id), Refs(u, field)))
  }

  /**
   * Writes the entity and appends a reference to it at the end of the user's
   * list; a user that is not cached leaves the cache as it was.
   */
  function AppendRef(c: Cache, userId: string, field: ListField, key: EntityKey): (r: Cache)
    ensures userId !in c.users ==> r == c
    ensures userId in c.users ==>
      && OnlyFieldChanged(c, r, userId, field)
      && Refs(r.users[userId], field) == Refs(c.users[userId], field) + [key.id]
      && r.entities == c.entities + {key}
  {
    if userId in c.users then Cache(c.users[userId := AppendTo(c.users[userId], field, key.id)], c.entities + {key})
    else c
  }

  /**
   * Drops every reference with the given id from the user's list, keeping
   * the others in order; a user that is not cached leaves the cache as it was.
   */
  function RemoveRefs(c: Cache, userId: string, field: ListField, id: string): (r: Cache)
    ensures userId !in c.users ==> r == c
    ensures r.entities == c.entities
    ensures userId in c.users ==>
      && OnlyFieldChanged(c, r, userId, field)
      && Seqs.IsSubsequence(Refs(r.users[userId], field), Refs(c.users[userId], field))
      && (forall x :: x in Refs(r.users[userId], field) <==> x in Refs(c.users[userId], field) && x != id)
      && (forall x :: x != id ==> multiset(Refs(r.users[userId], field))[x] == multiset(Refs(c.users[userId], field))[x])
  {
    if userId in c.users then Cache(c.users[userId := RemoveFrom(c.users[userId], field, id)], c.entities)
    else c
  }

  /** Removes the entity from the cache; user lists are untouched. */
  function Evict(c: Cache, key: EntityKey): (r: Cache)
    ensures r.users == c.users
    ensures key !in r.entities
    ensures forall k :: k in c.entities && k != key ==> k in r.entities
    ensures r.entities <= c.entities
  {
    c.(entities := c.entities - {key})
  }

  /** Dropping an id that only the appended last reference carries gives back the list before the append. */
  lemma {:induction false} DropAppended(refs: seq<string>, id: string)
    requires id !in refs
    ensures Seqs.Filter(PointsElsewhere(id), refs + [id]) == refs
  {
    var p := PointsElsewhere(id);
    assert forall i :: 0 <= i < |refs| ==> p(refs[i]);
    Seqs.FilterAll(p, refs);
    assert Seqs.Filter(p, [id]) == [];
    Seqs.FilterConcat(p, refs, [id]);
  }

  /** Dropping the references to an id just appended gives back the lists before the append, when that id was new. */
  lemma {:induction false} RemoveFromAppendTo(u: UserLists, field: ListField, id: string)
    requires id !in Refs(u, field)
    ensures RemoveFrom(AppendTo(u, field, id), field, id) == u
  {
    DropAppended(Refs(u, field), id);
    match field
    case EventLabels =>
    case LoggableEvents =>
  }

  /**
   * Removing the references to an id right after appending one to it restores
   * the list, provided the list held no reference to that id before.
   */
  lemma {:induction false} RemoveAfterAppend(c: Cache, userId: string, field: ListField, key: EntityKey)
    requires userId in c.users
    requires key.id !in Refs(c.users[userId], field)
    ensures RemoveRefs(AppendRef(c, userId, field, key), userId, field, key.id).users == c.users
  {
    var u := c.users[userId];
    RemoveFromAppendTo(u, field, key.id);
    assert c.users[userId := AppendTo(u, field, key.id)][userId := u] == c.users;
  }

  /** The signed-in user, as far as the callbacks read it; `None` when nobody is signed in. */
  datatype User = User(id: string)

  /** Whether a cache callback acts at all: it needs a payload and a signed-in user with a non-empty id. */
  predicate CallbackApplies<P>(payload: Option<P>, user: Option<User>) {
    payload.Some? && user.Some? && Truthy(user.value.id)
  }

  /**
   * The `update` callback of a create: writes the created entity and appends
   * a reference to it to the user's list; without the created id or a user id
   * it does nothing.
   */
  function AfterCreate(c: Cache, field: ListField, typename: string, createdId: Option<string>, user: Option<User>): (r: Cache)
    ensures !CallbackApplies(createdId, user) || user.value.id !in c.users ==> r == c
    ensures CallbackApplies(createdId, user) && user.value.id in c.users ==>
      && OnlyFieldChanged(c, r, user.value.id, field)
      && Refs(r.users[user.value.id], field) == Refs(c.users[user.value.id], field) + [createdId.value]
      && r.entities == c.entities + {EntityKey(typename, createdId.value)}
  {
    if CallbackApplies(createdId, user) then AppendRef(c, user.value.id, field, EntityKey(typename, createdId.value))
    else c
  }

  /**
   * The `update` callback of a delete: drops the references to the deleted id
   * from the user's list and evicts the entity; without the deleted id or a
   * user id it does nothing.
   */
  function AfterDelete(c: Cache, field: ListField, typename: string, deletedId: Option<string>, user: Option<User>): (r: Cache)
    ensures !CallbackApplies(deletedId, user) ==> r == c
    ensures CallbackApplies(deletedId, user) ==>
      && r.users.Keys == c.users.Keys
      && (forall u :: u in c.users && u != user.value.id ==> r.users[u] == c.users[u])
      && EntityKey(typename, deletedId.value) !in r.entities
      && (forall k :: k in c.entities && k != EntityKey(typename, deletedId.value) ==> k in r.entities)
      && r.entities <= c.entities
    ensures CallbackApplies(deletedId, user) && user.value.id in c.users ==>
      && OnlyFieldChanged(c, r, user.value.id, field)
      && Seqs.IsSubsequence(Refs(r.users[user.value.id], field), Refs(c.users[user.value.id], field))
      && (forall x :: x in Refs(r.users[user.value.id], field) <==>
            x in Refs(c.users[user.value.id], field) && x != deletedId.value)
      && (forall x :: x != deletedId.value ==>
            multiset(Refs(r.users[user.value.id], field))[x] == multiset(Refs(c.users[user.value.id], field))[x])
  {
    if CallbackApplies(deletedId, user) then
      Evict(RemoveRefs(c, user.value.id, field, deletedId.value), EntityKey(typename, deletedId.value))
    else c
  }

  /**
   * A delete callback right after the create callback for the same entity
   * and user gives back the cache as it was, when the entity was new to it.
   */
  lemma {:induction false} DeleteUndoesCreate(c: Cache, field: ListField, typename: string, id: string, user: User)
    requires user.id != "" && user.id in c.users
    requires id !in Refs(c.users[user.id], field)
    requires EntityKey(typename, id) !in c.entities
    ensures AfterDelete(AfterCreate(c, field, typename, Some(id), Some(user)), field, typename, Some(id), Some(user)) == c
  {
    var key := EntityKey(typename, id);
    RemoveAfterAppend(c, user.id, field, key);
    assert c.entities + {key} - {key} == c.entities;
  }
}

=== FILE: apollo_client.dfy ===
/**
 * The Apollo client set-up: the offline mock link, which answers the four
 * create/update mutations with synthetic payloads and passes everything else
 * on, and the choice between that link and the authenticated HTTP link.
 * Operation variables and payloads are JSON values; a JavaScript object is a
 * map from keys to values, so an object spread `{...a, ...b}` is the map
 * union `a + b`, where the right operand wins on shared keys. `Date.now()`
 * and `new Date().toISOString()` are parameters.
 */
module ApolloClient {
  import opened JsValues

  datatype Json =
    | JUndefined
    | JNull
    | JBool(b: bool)
    | JNum(n: int)
    | JStr(s: string)
    | JArr(items: seq<Json>)
    | JObj(fields: map<string, Json>)

  /** JavaScript truthiness of a JSON value (`NaN` is not modelled). */
  predicate JsonTruthy(v: Json) {
    match v
    case JUndefined => false
    case JNull => false
    case JBool(b) => b
    case JNum(n) => n != 0
    case JStr(s) => Truthy(s)
    case JArr(_) => true
    case JObj(_) => true
  }

  /** `obj.key`: the value under the key, `undefined` when it is missing. */
  function Get(obj: map<string, Json>, key: string): (r: Json)
    ensures key in obj ==> r == obj[key]
    ensures key !in obj ==> r == JUndefined
  {
    if key in obj then obj[key] else JUndefined
  }

  /** `v?.key`: the field of an object; `undefined` for anything else. */
  function OptionalField(v: Json, key: string): (r: Json)
    ensures v.JObj? ==> r == Get(v.fields, key)
    ensures !v.JObj? ==> r == JUndefined
  {
    if v.JObj? then Get(v.fields, key) else JUndefined
  }

  /** The properties `...v` contributes to an object literal: an object's own fields, nothing for `undefined`, `null` or a scalar. */
  function SpreadOf(v: Json): (r: map<string, Json>)
    ensures v.JObj? ==> r == v.fields
    ensures !v.JObj? ==> r == map[]
  {
    if v.JObj? then v.fields else map[]
  }

  datatype OperationKind = Query | Mutation | Subscription

  /** What the link reads of a GraphQL operation: the kind of its first definition, its name and its variables. */
  datatype Operation = Operation(kind: OperationKind, operationName: Option<string>, variables: map<string, Json>)

  const CREATE_LOGGABLE_EVENT := "CreateLoggableEvent"
  const UPDATE_LOGGABLE_EVENT := "UpdateLoggableEvent"
  const CREATE_EVENT_LABEL := "CreateEventLabel"
  const UPDATE_EVENT_LABEL := "UpdateEventLabel"
  const SERVER_ID_PREFIX := "server-"

  function DigitChar(d: nat): (c: char)
    requires d < 10
    ensures '0' <= c <= '9' && (c - '0') as nat == d
  {
    "0123456789"[d]
  }

  predicate AllDigits(s: string) {
    forall i :: 0 <= i < |s| ==> '0' <= s[i] <= '9'
  }

  /** The decimal digits of a number, as template literals print it. */
  function NatToDecimal(n: nat): (r: string)
    ensures |r| >= 1 && AllDigits(r)
    decreases n
  {
    if n < 10 then [DigitChar(n)] else NatToDecimal(n / 10) + [DigitChar(n % 10)]
  }

  /** The number a string of decimal digits denotes. */
  function DecimalValue(s: string): nat
    requires AllDigits(s)
  {
    if |s| == 0 then 0 else DecimalValue(s[..|s| - 1]) * 10 + (s[|s| - 1] - '0') as nat
  }

  /** Reading the printed digits back gives the number. */
  lemma {:induction false} DecimalRoundTrip(n: nat)
    ensures DecimalValue(NatToDecimal(n)) == n
    decreases n
  {
    var r := NatToDecimal(n);
    if n >= 10 {
      DecimalRoundTrip(n / 10);
      assert r[..|r| - 1] == NatToDecimal(n / 10);
    }
  }

  /** The id the mock link gives a created entity that came without one: the prefix and the current time in milliseconds. */
  function ServerId(now: nat): (r: string)
    ensures StartsWith(r, SERVER_ID_PREFIX)
    ensures AllDigits(r[|SERVER_ID_PREFIX|..]) && DecimalValue(r[|SERVER_ID_PREFIX|..]) == now
  {
    DecimalRoundTrip(now);
    var r := SERVER_ID_PREFIX + NatToDecimal(now);
    assert r[|SERVER_ID_PREFIX|..] == NatToDecimal(now);
    r
  }

  /** Server-like ids made at different times differ. */
  lemma ServerIdsDistinct(a: nat, b: nat)
    requires a != b
    ensures ServerId(a) != ServerId(b)
  {
  }

  /**
   * `{__typename, id, ...input, ...extra}`: the typename and id first, then
   * the input's fields and the extra fields, each overriding what came before.
   */
  function MockedObject(typename: string, id: Json, input: Json, extra: map<string, Json>): (r: map<string, Json>)
    ensures r.Keys == {"__typename", "id"} + SpreadOf(input).Keys + extra.Keys
    ensures forall k :: k in extra ==> r[k] == extra[k]
    ensures forall k :: k in SpreadOf(input) && k !in extra ==> r[k] == SpreadOf(input)[k]
    ensures "id" !in extra ==> r["id"] == if "id" in SpreadOf(input) then SpreadOf(input)["id"] else id
    ensures "__typename" !in extra && "__typename" !in SpreadOf(input) ==> r["__typename"] == JStr(typename)
  {
    map["__typename" := JStr(typename), "id" := id] + SpreadOf(input) + extra
  }

  /** `variables.input?.id || \`server-${Date.now()}\``. */
  function CreatedId(variables: map<string, Json>, now: nat): (r: Json)
    ensures JsonTruthy(OptionalField(Get(variables, "input"), "id")) ==> r == OptionalField(Get(variables, "input"), "id")
    ensures !JsonTruthy(OptionalField(Get(variables, "input"), "id")) ==> r == JStr(ServerId(now))
  {
    var id := OptionalField(Get(variables, "input"), "id");
    if JsonTruthy(id) then id else JStr(ServerId(now))
  }

  /**
   * The mock payload of `CreateLoggableEvent`: the input's fields, its id when
   * it has one (a server-like id otherwise), a fresh `createdAt` and no labels.
   */
  function MockCreateLoggableEvent(variables: map<string, Json>, now: nat, nowIso: string): (r: map<string, Json>)
    ensures r.Keys == {"__typename", "id", "createdAt", "labels"} + SpreadOf(Get(variables, "input")).Keys
    ensures var input := SpreadOf(Get(variables, "input"));
      && r["id"] == (if "id" in input then input["id"] else JStr(ServerId(now)))
      && r["createdAt"] == JStr(nowIso)
      && r["labels"] == JArr([])
      && (forall k :: k in input && k != "createdAt" && k != "labels" ==> k in r && r[k] == input[k])
      && ("__typename" !in input ==> r["__typename"] == JStr("LoggableEvent"))
  {
    MockedObject("LoggableEvent", CreatedId(variables, now), Get(variables, "input"),
      map["createdAt" := JStr(nowIso), "labels" := JArr([])])
  }

  /** The mock payload of `UpdateLoggableEvent`: `variables.id` unless the input supplies an id, the input's fields, no labels. */
  function MockUpdateLoggableEvent(variables: map<string, Json>): (r: map<string, Json>)
    ensures r.Keys == {"__typename", "id", "labels"} + SpreadOf(Get(variables, "input")).Keys
    ensures var input := SpreadOf(Get(variables, "input"));
      && r["id"] == (if "id" in input then input["id"] else Get(variables, "id"))
      && r["labels"] == JArr([])
      && ("createdAt" !in input ==> "createdAt" !in r)
      && ("__typename" !in input ==> r["__typename"] == JStr("LoggableEvent"))
    ensures forall k :: k in SpreadOf(Get(variables, "input")) && k != "labels" ==>
      k in r && r[k] == SpreadOf(Get(variables, "input"))[k]
  {
    MockedObject("LoggableEvent", Get(variables, "id"), Get(variables, "input"), map["labels" := JArr([])])
  }

  /** The mock payload of `CreateEventLabel`: the input's fields, its id when it has one (a server-like id otherwise), a fresh `createdAt`. */
  function MockCreateEventLabel(variables: map<string, Json>, now: nat, nowIso: string): (r: map<string, Json>)
    ensures r.Keys == {"__typename", "id", "createdAt"} + SpreadOf(Get(variables, "input")).Keys
    ensures var input := SpreadOf(Get(variables, "input"));
      && r["id"] == (if "id" in input then input["id"] else JStr(ServerId(now)))
      && r["createdAt"] == JStr(nowIso)
      && ("labels" !in input ==> "labels" !in r)
      && ("__typename" !in input ==> r["__typename"] == JStr("EventLabel"))
    ensures forall k :: k in SpreadOf(Get(variables, "input")) && k != "createdAt" ==>
      k in r && r[k] == SpreadOf(Get(variables, "input"))[k]
  {
    MockedObject("EventLabel", CreatedId(variables, now), Get(variables, "input"), map["createdAt" := JStr(nowIso)])
  }

  /** The mock payload of `UpdateEventLabel`: `variables.id` unless the input supplies an id, and exactly the input's fields besides. */
  function MockUpdateEventLabel(variables: map<string, Json>): (r: map<string, Json>)
    ensures r.Keys == {"__typename", "id"} + SpreadOf(Get(variables, "input")).Keys
    ensures r["id"] == if "id" in SpreadOf(Get(variables, "input")) then SpreadOf(Get(variables, "input"))["id"] else Get(variables, "id")
    ensures forall k :: k in SpreadOf(Get(variables, "input")) ==> r[k] == SpreadOf(Get(variables, "input"))[k]
    ensures "__typename" !in SpreadOf(Get(variables, "input")) ==> r["__typename"] == JStr("EventLabel")
  {
    MockedObject("EventLabel", Get(variables, "id"), Get(variables, "input"), map[])
  }

  /** `{ data: { field: payload } }`. */
  function DataResult(field: string, payload: map<string, Json>): Json {
    JObj(map["data" := JObj(map[field := JObj(payload)])])
  }

  /** The names of the mutations the mock link answers with a payload. */
  predicate IsMockedMutation(name: Option<string>) {
    name == Some(CREATE_LOGGABLE_EVENT) || name == Some(UPDATE_LOGGABLE_EVENT)
    || name == Some(CREATE_EVENT_LABEL) || name == Some(UPDATE_EVENT_LABEL)
  }

  /** The results a mocked mutation emits before it completes: one data result for the four known names, none for any other. */
  function MockMutationResults(op: Operation, now: nat, nowIso: string): (r: seq<Json>)
    ensures |r| == 1 <==> IsMockedMutation(op.operationName)
    ensures |r| <= 1
    ensures op.operationName == Some(CREATE_LOGGABLE_EVENT) ==>
      r == [DataResult("createLoggableEvent", MockCreateLoggableEvent(op.variables, now, nowIso))]
    ensures op.operationName == Some(UPDATE_LOGGABLE_EVENT) ==>
      r == [DataResult("updateLoggableEvent", MockUpdateLoggableEvent(op.variables))]
    ensures op.operationName == Some(CREATE_EVENT_LABEL) ==>
      r == [DataResult("createEventLabel", MockCreateEventLabel(op.variables, now, nowIso))]
    ensures op.operationName == Some(UPDATE_EVENT_LABEL) ==>
      r == [DataResult("updateEventLabel", MockUpdateEventLabel(op.variables))]
  {
    if op.operationName == Some(CREATE_LOGGABLE_EVENT) then
      [DataResult("createLoggableEvent", MockCreateLoggableEvent(op.variables, now, nowIso))]
    else if op.operationName == Some(UPDATE_LOGGABLE_EVENT) then
      [DataResult("updateLoggableEvent", MockUpdateLoggableEvent(op.variables))]
    else if op.operationName == Some(CREATE_EVENT_LABEL) then
      [DataResult("createEventLabel", MockCreateEventLabel(op.variables, now, nowIso))]
    else if op.operationName == Some(UPDATE_EVENT_LABEL) then
      [DataResult("updateEventLabel", MockUpdateEventLabel(op.variables))]
    else []
  }

  /**
   * What a link does with an operation: emits the given results and
   * completes, hands the operation to the next link, or sends it to the
   * server over the authenticated HTTP link.
   */
  datatype LinkResult = Emits(results: seq<Json>) | Forwarded(op: Operation) | SentOverHttp(op: Operation)

  /**
   * The offline mock link: a mutation is answered locally (with a payload
   * for the four known names, with nothing otherwise); any other operation
   * goes to the next link, or yields an empty observable when there is none.
   */
  function OfflineMockLink(op: Operation, hasForward: bool, now: nat, nowIso: string): (r: LinkResult)
    ensures op.kind == Mutation ==> r.Emits? && |r.results| <= 1
    ensures op.kind == Mutation ==> (|r.results| == 1 <==> IsMockedMutation(op.operationName))
    ensures op.kind != Mutation && hasForward ==> r == Forwarded(op)
    ensures op.kind != Mutation && !hasForward ==> r == Emits([])
  {
    if op.kind == Mutation then Emits(MockMutationResults(op, now, nowIso))
    else if hasForward then Forwarded(op)
    else Emits([])
  }

  /** The link the client is created with. */
  datatype Link = MockLink | AuthHttpLink

  /** The mock link in offline mode, the authenticated HTTP link otherwise. */
  function ChooseLink(isOfflineMode: bool): (r: Link)
    ensures r == MockLink <==> isOfflineMode
  {
    if isOfflineMode then MockLink else AuthHttpLink
  }

  /**
   * What the client's link does with an operation. In offline mode the mock
   * link is the client's whole link chain, so it has no next link: every
   * operation other than a mutation gets an empty observable.
   */
  function Route(isOfflineMode: bool, op: Operation, now: nat, nowIso: string): (r: LinkResult)
    ensures !isOfflineMode ==> r == SentOverHttp(op)
    ensures isOfflineMode ==> r == OfflineMockLink(op, false, now, nowIso)
    ensures isOfflineMode && op.kind != Mutation ==> r == Emits([])
    ensures !r.Forwarded?
  {
    match ChooseLink(isOfflineMode)
    case MockLink => OfflineMockLink(op, false, now, nowIso)
    case AuthHttpLink => SentOverHttp(op)
  }

  /** A payload is made up locally exactly for mutations in offline mode; nothing else is ever mocked. */
  lemma MockedOnlyOfflineMutations(isOfflineMode: bool, op: Operation, now: nat, nowIso: string)
    ensures var r := Route(isOfflineMode, op, now, nowIso);
      (r.Emits? && |r.results| > 0) <==> isOfflineMode && op.kind == Mutation && IsMockedMutation(op.operationName)
  {
  }
}

=== FILE: edit_event_card.dfy ===
/**
 * The rules of the form that creates or edits a loggable event: when the
 * typed name is acceptable, which message the name field shows, which
 * warning threshold gets saved, what the form starts with, and which
 * provider operation a submit triggers. The form reads the provider's
 * context, so it works on the provider's records.
 */
module EditEventCard {
  import opened JsValues
  import Seqs
  import P = LoggableEventsProvider

  /** Longest accepted event name, in UTF-16 code units (`.length`). */
  const MAX_LENGTH: int := 25

  /** No `eventIdToEdit`, or an empty one: the form creates a new event. */
  predicate IsCreatingNewEvent(eventIdToEdit: Option<string>) {
    eventIdToEdit.None? || eventIdToEdit.value == ""
  }

  /** `id !== eventIdToEdit`; a string id always differs from an absent one. */
  predicate IdDiffers(id: string, eventIdToEdit: Option<string>) {
    eventIdToEdit.None? || id != eventIdToEdit.value
  }

  /** The event being edited, or the provider's defaults when no event has that id. */
  function EventToEdit(events: seq<P.LoggableEvent>, eventIdToEdit: Option<string>): (r: P.LoggableEvent)
    ensures eventIdToEdit.None? ==> r == P.EVENT_DEFAULT_VALUES
    ensures eventIdToEdit.Some? && (exists i :: 0 <= i < |events| && events[i].id == eventIdToEdit.value) ==>
      exists i :: (0 <= i < |events| && events[i] == r && r.id == eventIdToEdit.value
        && forall j :: 0 <= j < i ==> events[j].id != eventIdToEdit.value)
    ensures eventIdToEdit.Some? && (forall i :: 0 <= i < |events| ==> events[i].id != eventIdToEdit.value) ==>
      r == P.EVENT_DEFAULT_VALUES
  {
    if eventIdToEdit.None? then P.EVENT_DEFAULT_VALUES
    else Seqs.Find((e: P.LoggableEvent) => e.id == eventIdToEdit.value, events).GetOr(P.EVENT_DEFAULT_VALUES)
  }

  /** Some event other than the one being edited already carries the typed name. */
  function NameAlreadyExists(events: seq<P.LoggableEvent>, eventIdToEdit: Option<string>, input: string): (r: bool)
    ensures r <==> exists i :: 0 <= i < |events| && IdDiffers(events[i].id, eventIdToEdit) && events[i].name == input
  {
    Seqs.Find((e: P.LoggableEvent) => IdDiffers(e.id, eventIdToEdit) && e.name == input, events).Some?
  }

  /** The typed name may be saved: non-empty, at most MAX_LENGTH code units, and not another event's name. */
  function NameIsValid(events: seq<P.LoggableEvent>, eventIdToEdit: Option<string>, input: string): (r: bool)
    ensures r <==> (|input| > 0 && JsLength(input) <= MAX_LENGTH
      && forall i :: 0 <= i < |events| && IdDiffers(events[i].id, eventIdToEdit) ==> events[i].name != input)
  {
    JsLength(input) > 0 && JsLength(input) <= MAX_LENGTH && !NameAlreadyExists(events, eventIdToEdit, input)
  }

  /** The two problems the name field can report. */
  datatype NameError = TooLong | AlreadyExists

  /** The helper text shown under the name field. */
  function HelperText(e: NameError): string {
    match e
    case TooLong => "Event name is too long"
    case AlreadyExists => "That event name already exists"
  }

  /** The error the name field shows, if any: "too long" wins over "already exists". */
  function NameErrorToShow(events: seq<P.LoggableEvent>, eventIdToEdit: Option<string>, input: string): (r: Option<NameError>)
    ensures r == Some(TooLong) <==> JsLength(input) > MAX_LENGTH
    ensures r == Some(AlreadyExists) <==> JsLength(input) <= MAX_LENGTH && NameAlreadyExists(events, eventIdToEdit, input)
  {
    if JsLength(input) > MAX_LENGTH then Some(TooLong)
    else if NameAlreadyExists(events, eventIdToEdit, input) then Some(AlreadyExists)
    else None
  }

  /**
   * A name of thirteen emoji is thirteen characters but twenty-six code
   * units, so it is reported as too long and cannot be saved.
   */
  lemma EmojiNameIsTooLong(events: seq<P.LoggableEvent>, eventIdToEdit: Option<string>)
    ensures var name := seq(13, _ => '\U{1F600}');
      && NameErrorToShow(events, eventIdToEdit, name) == Some(TooLong)
      && !NameIsValid(events, eventIdToEdit, name)
  {
    JsLengthOutsideBmp(seq(13, _ => '\U{1F600}'));
  }

  /**
   * No message is shown exactly when the name is valid, or when it is empty
   * and no other event is itself unnamed: an empty name blocks saving silently.
   */
  lemma NoMessageIffValidOrEmpty(events: seq<P.LoggableEvent>, eventIdToEdit: Option<string>, input: string)
    ensures NameErrorToShow(events, eventIdToEdit, input).None?
        <==> NameIsValid(events, eventIdToEdit, input)
             || (input == "" && !NameAlreadyExists(events, eventIdToEdit, input))
  {
  }

  /** Names are pairwise distinct, as the form itself keeps them. */
  predicate DistinctNames(events: seq<P.LoggableEvent>) {
    forall i, j :: 0 <= i < j < |events| ==> events[i].name != events[j].name
  }

  /** While editing, the event's own unchanged name is never reported as taken. */
  lemma OwnNameIsNotDuplicate(events: seq<P.LoggableEvent>, k: int)
    requires P.UniqueEventIds(events) && DistinctNames(events)
    requires 0 <= k < |events|
    ensures !NameAlreadyExists(events, Some(events[k].id), events[k].name)
  {
    forall i | 0 <= i < |events| && events[i].id != events[k].id
      ensures events[i].name != events[k].name
    {
      assert i != k;
    }
  }

  /** The warning starts switched on only when editing an event whose threshold is positive. */
  function InitialWarningIsEnabled(events: seq<P.LoggableEvent>, eventIdToEdit: Option<string>): (r: bool)
    ensures r <==> !IsCreatingNewEvent(eventIdToEdit) && EventToEdit(events, eventIdToEdit).warningThresholdInDays > 0
  {
    if eventIdToEdit.Some? && Truthy(eventIdToEdit.value)
    then EventToEdit(events, eventIdToEdit).warningThresholdInDays > 0
    else false
  }

  /** The threshold the form offers: the default 7 for a new event, the event's own otherwise. */
  function DefaultWarningThreshold(events: seq<P.LoggableEvent>, eventIdToEdit: Option<string>): (r: int)
    ensures IsCreatingNewEvent(eventIdToEdit) ==> r == 7
    ensures !IsCreatingNewEvent(eventIdToEdit) ==> r == EventToEdit(events, eventIdToEdit).warningThresholdInDays
  {
    if IsCreatingNewEvent(eventIdToEdit) then P.EVENT_DEFAULT_VALUES.warningThresholdInDays
    else EventToEdit(events, eventIdToEdit).warningThresholdInDays
  }

  /** The threshold that is saved: 0 (no warning) while the switch is off, else the entered value. */
  function WarningThresholdValueToSave(warningIsEnabled: bool, warningThresholdInDays: int): (r: int)
    ensures !warningIsEnabled ==> r == 0
    ensures warningIsEnabled ==> r == warningThresholdInDays
  {
    if warningIsEnabled then warningThresholdInDays else 0
  }

  /** The label the list is currently filtered by, when its id is set and known. */
  function ActiveEventLabel(eventLabels: seq<P.EventLabel>, activeEventLabelId: Option<string>): (r: Option<P.EventLabel>)
    ensures activeEventLabelId.None? || activeEventLabelId.value == "" ==> r.None?
    ensures activeEventLabelId.Some? && activeEventLabelId.value != "" ==>
      (r.None? <==> forall i :: 0 <= i < |eventLabels| ==> eventLabels[i].id != activeEventLabelId.value)
    ensures r.Some? ==> activeEventLabelId.Some? && exists i :: (0 <= i < |eventLabels| && eventLabels[i] == r.value
      && r.value.id == activeEventLabelId.value
      && forall j :: 0 <= j < i ==> eventLabels[j].id != activeEventLabelId.value)
  {
    if activeEventLabelId.Some? && Truthy(activeEventLabelId.value)
    then Seqs.Find((l: P.EventLabel) => l.id == activeEventLabelId.value, eventLabels)
    else None
  }

  /**
   * The labels the form starts with: the active label alone when creating
   * under an active label; otherwise the known labels the event already
   * carries, in the order of the label list.
   */
  function InitialSelectedLabels(
    events: seq<P.LoggableEvent>, eventLabels: seq<P.EventLabel>,
    eventIdToEdit: Option<string>, activeEventLabelId: Option<string>): (r: seq<P.EventLabel>)
    ensures IsCreatingNewEvent(eventIdToEdit) && ActiveEventLabel(eventLabels, activeEventLabelId).Some? ==>
      r == [ActiveEventLabel(eventLabels, activeEventLabelId).value]
    ensures !(IsCreatingNewEvent(eventIdToEdit) && ActiveEventLabel(eventLabels, activeEventLabelId).Some?) ==>
      && Seqs.IsSubsequence(r, eventLabels)
      && (forall l :: l in r <==> l in eventLabels && l.id in EventToEdit(events, eventIdToEdit).labelIds)
      && forall l :: multiset(r)[l] ==
           if l.id in EventToEdit(events, eventIdToEdit).labelIds then multiset(eventLabels)[l] else 0
  {
    var active := ActiveEventLabel(eventLabels, activeEventLabelId);
    if IsCreatingNewEvent(eventIdToEdit) && active.Some? then [active.value]
    else
      var labelIds := EventToEdit(events, eventIdToEdit).labelIds;
      Seqs.Filter((l: P.EventLabel) => l.id in labelIds, eventLabels)
  }

  /** Whether the label input starts open. */
  function InitialShowLabelInput(
    events: seq<P.LoggableEvent>, eventIdToEdit: Option<string>, activeEventLabelId: Option<string>): (r: bool)
    ensures IsCreatingNewEvent(eventIdToEdit) ==> (r <==> activeEventLabelId.Some? && activeEventLabelId.value != "")
    ensures !IsCreatingNewEvent(eventIdToEdit) ==> (r <==> |EventToEdit(events, eventIdToEdit).labelIds| > 0)
  {
    if IsCreatingNewEvent(eventIdToEdit) then activeEventLabelId.Some? && Truthy(activeEventLabelId.value)
    else |EventToEdit(events, eventIdToEdit).labelIds| > 0
  }

  /** The form's state. */
  datatype Form = Form(
    eventNameInputValue: string,
    warningIsEnabled: bool,
    warningThresholdInDays: int,
    showLabelInput: bool,
    selectedLabels: seq<P.EventLabel>)

  /** The form as first shown. */
  function InitialForm(
    events: seq<P.LoggableEvent>, eventLabels: seq<P.EventLabel>,
    eventIdToEdit: Option<string>, activeEventLabelId: Option<string>): Form
  {
    Form(
      EventToEdit(events, eventIdToEdit).name,
      InitialWarningIsEnabled(events, eventIdToEdit),
      DefaultWarningThreshold(events, eventIdToEdit),
      InitialShowLabelInput(events, eventIdToEdit, activeEventLabelId),
      InitialSelectedLabels(events, eventLabels, eventIdToEdit, activeEventLabelId))
  }

  /** What a submit asks of the provider. */
  datatype SubmitCall =
    | NoCall
    | CreateCall(name: string, warningThresholdInDays: int, labelIds: seq<string>)
    | UpdateCall(updated: P.LoggableEvent)

  function LabelIds(labels: seq<P.EventLabel>): seq<string> {
    Seqs.Map((l: P.EventLabel) => l.id, labels)
  }

  /**
   * Submitting the form: nothing happens unless the name is valid; then a new
   * event is created, or the edited event is updated with the typed name,
   * the threshold to save and the selected labels' ids.
   */
  function Submit(events: seq<P.LoggableEvent>, eventIdToEdit: Option<string>, form: Form): (r: SubmitCall)
    ensures r.NoCall? <==> !NameIsValid(events, eventIdToEdit, form.eventNameInputValue)
    ensures r.CreateCall? ==>
      && IsCreatingNewEvent(eventIdToEdit)
      && r.name == form.eventNameInputValue
      && r.warningThresholdInDays == WarningThresholdValueToSave(form.warningIsEnabled, form.warningThresholdInDays)
      && r.labelIds == LabelIds(form.selectedLabels)
    ensures r.UpdateCall? ==>
      && !IsCreatingNewEvent(eventIdToEdit)
      && r.updated.id == EventToEdit(events, eventIdToEdit).id
      && r.updated.timestamps == EventToEdit(events, eventIdToEdit).timestamps
      && r.updated.active == EventToEdit(events, eventIdToEdit).active
      && r.updated.name == form.eventNameInputValue
      && r.updated.warningThresholdInDays == WarningThresholdValueToSave(form.warningIsEnabled, form.warningThresholdInDays)
      && r.updated.labelIds == LabelIds(form.selectedLabels)
  {
    var valid := NameIsValid(events, eventIdToEdit, form.eventNameInputValue);
    var toSave := WarningThresholdValueToSave(form.warningIsEnabled, form.warningThresholdInDays);
    if !valid then NoCall
    else if eventIdToEdit.Some? && Truthy(eventIdToEdit.value) then
      UpdateCall(EventToEdit(events, eventIdToEdit).(
        name := form.eventNameInputValue,
        warningThresholdInDays := toSave,
        labelIds := LabelIds(form.selectedLabels)))
    else CreateCall(form.eventNameInputValue, toSave, LabelIds(form.selectedLabels))
  }

  /** The provider's event list after a submit. */
  function ApplySubmit(
    events: seq<P.LoggableEvent>, call: SubmitCall, responseId: Option<string>, freshId: string): seq<P.LoggableEvent>
  {
    match call
    case NoCall => events
    case CreateCall(name, threshold, labelIds) =>
      P.CreateLoggableEvent(events, name, threshold, labelIds, responseId, freshId)
    case UpdateCall(updated) => P.UpdateLoggableEventDetails(events, updated)
  }

  /** A submit with an invalid name leaves the events untouched. */
  lemma InvalidSubmitChangesNothing(
    events: seq<P.LoggableEvent>, eventIdToEdit: Option<string>, form: Form, responseId: Option<string>, freshId: string)
    requires !NameIsValid(events, eventIdToEdit, form.eventNameInputValue)
    ensures ApplySubmit(events, Submit(events, eventIdToEdit, form), responseId, freshId) == events
  {
  }

  /** No event has an empty id (ids come from the server or from uuid). */
  predicate NonEmptyIds(events: seq<P.LoggableEvent>) {
    forall i :: 0 <= i < |events| ==> events[i].id != ""
  }

  /** Every id that differs from the edited event's also differs from `eventIdToEdit`. */
  lemma OthersDifferFromEdited(events: seq<P.LoggableEvent>, eventIdToEdit: Option<string>, i: int)
    requires !IsCreatingNewEvent(eventIdToEdit)
    requires 0 <= i < |events| && events[i].id != EventToEdit(events, eventIdToEdit).id
    ensures IdDiffers(events[i].id, eventIdToEdit)
  {
    if exists k :: 0 <= k < |events| && events[k].id == eventIdToEdit.value {
    } else {
      assert events[i].id != eventIdToEdit.value;
    }
  }

  /**
   * The name rule does its job: starting from distinct names and unique,
   * non-empty ids, any submit leaves the names distinct.
   */
  lemma SubmitKeepsNamesDistinct(
    events: seq<P.LoggableEvent>, eventIdToEdit: Option<string>, form: Form, responseId: Option<string>, freshId: string)
    requires P.UniqueEventIds(events) && NonEmptyIds(events) && DistinctNames(events)
    ensures DistinctNames(ApplySubmit(events, Submit(events, eventIdToEdit, form), responseId, freshId))
  {
    var call := Submit(events, eventIdToEdit, form);
    var after := ApplySubmit(events, call, responseId, freshId);
    var input := form.eventNameInputValue;
    match call
    case NoCall =>
    case CreateCall(_, _, _) =>
      assert after[1..] == events;
      forall i, j | 0 <= i < j < |after|
        ensures after[i].name != after[j].name
      {
        assert after[j] == events[j - 1];
        if i == 0 {
          assert IdDiffers(events[j - 1].id, eventIdToEdit);
        } else {
          assert after[i] == events[i - 1];
        }
      }
    case UpdateCall(updated) =>
      forall i, j | 0 <= i < j < |after|
        ensures after[i].name != after[j].name
      {
        if events[i].id == updated.id && events[j].id == updated.id {
          assert false;
        } else if events[i].id == updated.id {
          OthersDifferFromEdited(events, eventIdToEdit, j);
        } else if events[j].id == updated.id {
          OthersDifferFromEdited(events, eventIdToEdit, i);
        }
      }
  }

  /**
   * Opening the form on an existing event and saving it untouched keeps the
   * event's name and a non-negative threshold; its label ids are re-saved as
   * the known labels it carries, in label-list order.
   */
  lemma UntouchedEditKeepsDetails(
    events: seq<P.LoggableEvent>, eventLabels: seq<P.EventLabel>, k: int, activeEventLabelId: Option<string>)
    requires P.UniqueEventIds(events) && DistinctNames(events)
    requires 0 <= k < |events| && events[k].id != ""
    requires 0 < |events[k].name| && JsLength(events[k].name) <= MAX_LENGTH
    requires events[k].warningThresholdInDays >= 0
    ensures var call := Submit(events, Some(events[k].id),
                               InitialForm(events, eventLabels, Some(events[k].id), activeEventLabelId));
      && call.UpdateCall?
      && call.updated.id == events[k].id
      && call.updated.name == events[k].name
      && call.updated.warningThresholdInDays == events[k].warningThresholdInDays
      && call.updated.labelIds == LabelIds(Seqs.Filter((l: P.EventLabel) => l.id in events[k].labelIds, eventLabels))
  {
    var editId := Some(events[k].id);
    var e := EventToEdit(events, editId);
    var j :| 0 <= j < |events| && events[j] == e;
    assert j == k;
    OwnNameIsNotDuplicate(events, k);
  }
}

=== FILE: event_label_autocomplete.dfy ===
/**
 * The label picker of the event form: which existing labels it offers for
 * the text typed so far, when it offers to create a new label (an option
 * marked with a reserved prefix), and how the values it reports on a change
 * become the selected labels and the labels to create. The label-name
 * validator is a parameter: it returns an error code, or `None` for a name
 * that may be created.
 */
module EventLabelAutocomplete {
  import opened JsValues
  import Seqs
  import opened Types

  /** Marks the "create new label" option among the option strings. */
  const CREATE_NEW_LABEL_PREFIX: string := "__CREATE_NEW__"

  /** No selected label has the label's id. */
  predicate Unselected(l: EventLabel, selectedLabels: seq<EventLabel>) {
    forall j :: 0 <= j < |selectedLabels| ==> selectedLabels[j].id != l.id
  }

  /** The labels not selected yet, compared by id, in the order of `existingLabels`. */
  function LabelOptions(existingLabels: seq<EventLabel>, selectedLabels: seq<EventLabel>): (r: seq<EventLabel>)
    ensures Seqs.IsSubsequence(r, existingLabels)
    ensures forall l :: l in r <==> l in existingLabels && Unselected(l, selectedLabels)
    ensures forall l :: multiset(r)[l] == if Unselected(l, selectedLabels) then multiset(existingLabels)[l] else 0
  {
    Seqs.Filter((l: EventLabel) => !Seqs.Any((s: EventLabel) => s.id == l.id, selectedLabels), existingLabels)
  }

  function Name(l: EventLabel): string {
    l.name
  }

  function LabelNames(labels: seq<EventLabel>): seq<string> {
    Seqs.Map(Name, labels)
  }

  /** A label name contains the typed text, ignoring case. */
  predicate NameMatchesInput(name: string, inputValue: string) {
    Includes(ToLowerCase(name), ToLowerCase(inputValue))
  }

  /** The label's name contains the typed text, ignoring case. */
  predicate MatchesInput(l: EventLabel, inputValue: string) {
    NameMatchesInput(l.name, inputValue)
  }

  /**
   * The names of the unselected labels that match the typed text: in label
   * order, each as often as an unselected label carries it.
   */
  function MatchingOptionNames(
    existingLabels: seq<EventLabel>, selectedLabels: seq<EventLabel>, inputValue: string): (r: seq<string>)
    ensures var names := LabelNames(LabelOptions(existingLabels, selectedLabels));
      && Seqs.IsSubsequence(r, names)
      && (forall n :: n in r <==> n in names && NameMatchesInput(n, inputValue))
      && forall n :: multiset(r)[n] == if NameMatchesInput(n, inputValue) then multiset(names)[n] else 0
  {
    var options := LabelOptions(existingLabels, selectedLabels);
    var matches := (l: EventLabel) => MatchesInput(l, inputValue);
    var nameMatches := (n: string) => NameMatchesInput(n, inputValue);
    Seqs.MapFilterCommute(Name, nameMatches, matches, options);
    var r := LabelNames(Seqs.Filter(matches, options));
    assert r == Seqs.Filter(nameMatches, LabelNames(options));
    r
  }

  /**
   * The picker offers to create the typed text as a new label: it is non-empty,
   * equals no existing name ignoring case, and the validator accepts it.
   */
  predicate OffersCreateNew(
    existingLabels: seq<EventLabel>, inputValue: string, validate: (string, seq<string>) -> Option<string>)
  {
    && Truthy(inputValue)
    && !Seqs.Any((n: string) => ToLowerCase(n) == ToLowerCase(inputValue), LabelNames(existingLabels))
    && validate(inputValue, LabelNames(existingLabels)).None?
  }

  /**
   * The options listed for the typed text: the matching unselected names, in
   * label order, followed by the "create new" option when it is offered.
   */
  function GetFilteredOptions(
    existingLabels: seq<EventLabel>, selectedLabels: seq<EventLabel>, inputValue: string,
    validate: (string, seq<string>) -> Option<string>): (r: seq<string>)
    ensures var m := MatchingOptionNames(existingLabels, selectedLabels, inputValue);
      && |r| == |m| + (if OffersCreateNew(existingLabels, inputValue, validate) then 1 else 0)
      && r[..|m|] == m
      && (OffersCreateNew(existingLabels, inputValue, validate) ==> r[|m|] == CREATE_NEW_LABEL_PREFIX + inputValue)
  {
    var filteredOptions := MatchingOptionNames(existingLabels, selectedLabels, inputValue);
    if OffersCreateNew(existingLabels, inputValue, validate) then
      var r := filteredOptions + [CREATE_NEW_LABEL_PREFIX + inputValue];
      assert r[..|filteredOptions|] == filteredOptions;
      r
    else filteredOptions
  }

  /** With nothing typed, every unselected label is offered and nothing is offered for creation. */
  lemma EmptyInputOffersAllUnselected(
    existingLabels: seq<EventLabel>, selectedLabels: seq<EventLabel>, validate: (string, seq<string>) -> Option<string>)
    ensures GetFilteredOptions(existingLabels, selectedLabels, "", validate)
         == LabelNames(LabelOptions(existingLabels, selectedLabels))
  {
    var options := LabelOptions(existingLabels, selectedLabels);
    forall i | 0 <= i < |options|
      ensures MatchesInput(options[i], "")
    {
      assert ToLowerCase("") == "";
      IncludesEmpty(ToLowerCase(options[i].name));
    }
    Seqs.FilterAll((l: EventLabel) => MatchesInput(l, ""), options);
  }

  /** The "create new" option carries the typed text back: stripping the marker yields the input. */
  lemma CreateOptionRoundTrip(
    existingLabels: seq<EventLabel>, selectedLabels: seq<EventLabel>, inputValue: string,
    validate: (string, seq<string>) -> Option<string>)
    requires OffersCreateNew(existingLabels, inputValue, validate)
    ensures var r := GetFilteredOptions(existingLabels, selectedLabels, inputValue, validate);
      && |r| > 0
      && StartsWith(r[|r| - 1], CREATE_NEW_LABEL_PREFIX)
      && RemoveFirst(r[|r| - 1], CREATE_NEW_LABEL_PREFIX) == inputValue
  {
    RemoveFirstOfPrefix(CREATE_NEW_LABEL_PREFIX, inputValue);
  }

  /** `handleCreateNewLabel`: a creation request for the name, only when the validator accepts it. */
  function HandleCreateNewLabel(
    labelName: string, existingLabels: seq<EventLabel>, validate: (string, seq<string>) -> Option<string>): (r: seq<string>)
    ensures validate(labelName, LabelNames(existingLabels)).None? ==> r == [labelName]
    ensures validate(labelName, LabelNames(existingLabels)).Some? ==> r == []
  {
    if validate(labelName, LabelNames(existingLabels)).None? then [labelName] else []
  }

  /** Why the picker reports a change. */
  datatype ChangeReason = CreateOption | SelectOption | RemoveOption | Blur | Clear

  predicate IsCreateNewValue(v: string) {
    StartsWith(v, CREATE_NEW_LABEL_PREFIX)
  }

  /** The first existing label with the given name, as `find` returns it. */
  function LabelNamed(existingLabels: seq<EventLabel>, name: string): (r: Option<EventLabel>)
    ensures r.None? <==> forall i :: 0 <= i < |existingLabels| ==> existingLabels[i].name != name
    ensures r.Some? ==> exists i :: (0 <= i < |existingLabels| && existingLabels[i] == r.value && r.value.name == name
      && forall j :: 0 <= j < i ==> existingLabels[j].name != name)
  {
    Seqs.Find((l: EventLabel) => l.name == name, existingLabels)
  }

  /** A picked value that selects a label: not a "create new" option, and the name of an existing label. */
  predicate SelectsLabel(existingLabels: seq<EventLabel>, v: string) {
    !IsCreateNewValue(v) && exists i :: 0 <= i < |existingLabels| && existingLabels[i].name == v
  }

  function SelectsLabelIn(existingLabels: seq<EventLabel>): string -> bool {
    v => SelectsLabel(existingLabels, v)
  }

  /**
   * The selected labels after a change: one label for every value that is
   * not a "create new" option and names an existing label, in the order of
   * the values, and it is the first existing label with that name; other
   * values are dropped.
   */
  function SelectionFromValues(values: seq<string>, existingLabels: seq<EventLabel>): (r: seq<EventLabel>)
    ensures var picked := Seqs.Filter(SelectsLabelIn(existingLabels), values);
      && |r| == |picked|
      && forall i :: 0 <= i < |r| ==> LabelNamed(existingLabels, picked[i]) == Some(r[i])
  {
    if |values| == 0 then []
    else
      var rest := SelectionFromValues(values[1..], existingLabels);
      Seqs.FilterCons(SelectsLabelIn(existingLabels), values);
      if IsCreateNewValue(values[0]) then rest
      else
        match LabelNamed(existingLabels, values[0])
        case None => rest
        case Some(l) => [l] + rest
  }

  /**
   * The typed names carried by the "create new" values: one per such value,
   * in order, with the marker removed.
   */
  function CreateOptionNames(values: seq<string>): (r: seq<string>)
    ensures var markers := Seqs.Filter(IsCreateNewValue, values);
      && |r| == |markers|
      && forall i :: 0 <= i < |r| ==> r[i] == RemoveFirst(markers[i], CREATE_NEW_LABEL_PREFIX)
  {
    if |values| == 0 then []
    else
      var rest := CreateOptionNames(values[1..]);
      if IsCreateNewValue(values[0]) then [RemoveFirst(values[0], CREATE_NEW_LABEL_PREFIX)] + rest else rest
  }

  /** A value typed freely counts as a new name: not a marker, no existing label's name, no selected label's name. */
  predicate IsTypedNewName(v: string, existingLabels: seq<EventLabel>, selectedLabels: seq<EventLabel>) {
    && !IsCreateNewValue(v)
    && (forall i :: 0 <= i < |existingLabels| ==> existingLabels[i].name != v)
    && forall j :: 0 <= j < |selectedLabels| ==> selectedLabels[j].name != v
  }

  /**
   * Values typed freely and confirmed with Enter: only on a `createOption`
   * change; exactly the new names among the values, in order and with their
   * multiplicity.
   */
  function TypedNewNames(
    values: seq<string>, reason: ChangeReason, existingLabels: seq<EventLabel>, selectedLabels: seq<EventLabel>): (r: seq<string>)
    ensures reason != CreateOption ==> r == []
    ensures Seqs.IsSubsequence(r, values)
    ensures forall n :: n in r <==>
      reason == CreateOption && n in values && IsTypedNewName(n, existingLabels, selectedLabels)
    ensures forall n :: (multiset(r)[n] ==
      if reason == CreateOption && IsTypedNewName(n, existingLabels, selectedLabels) then multiset(values)[n] else 0)
  {
    var names := LabelNames(existingLabels);
    var p := (v: string) =>
      && reason == CreateOption
      && !IsCreateNewValue(v)
      && v !in names
      && !Seqs.Any((l: EventLabel) => l.name == v, selectedLabels);
    if reason != CreateOption then Seqs.FilterNone(p, values); Seqs.Filter(p, values)
    else Seqs.Filter(p, values)
  }

  /**
   * The label names one change asks to create: of the names carried by
   * "create new" values followed by the freely typed new names, exactly those
   * the validator accepts, in that order.
   */
  function CreationRequests(
    values: seq<string>, reason: ChangeReason,
    existingLabels: seq<EventLabel>, selectedLabels: seq<EventLabel>,
    validate: (string, seq<string>) -> Option<string>): (r: seq<string>)
    ensures var asked := CreateOptionNames(values) + TypedNewNames(values, reason, existingLabels, selectedLabels);
      && Seqs.IsSubsequence(r, asked)
      && (forall n :: n in r <==> n in asked && validate(n, LabelNames(existingLabels)).None?)
      && forall n :: multiset(r)[n] ==
           if validate(n, LabelNames(existingLabels)).None? then multiset(asked)[n] else 0
  {
    var asked := CreateOptionNames(values) + TypedNewNames(values, reason, existingLabels, selectedLabels);
    Seqs.Filter(AcceptedBy(validate, LabelNames(existingLabels)), asked)
  }

  /** The validator, as a filter: the names it returns no error for. */
  function AcceptedBy(validate: (string, seq<string>) -> Option<string>, names: seq<string>): string -> bool {
    n => validate(n, names).None?
  }

  /** What one change of the picker does. */
  datatype ChangeOutcome = ChangeOutcome(selectedLabels: seq<EventLabel>, labelsToCreate: seq<string>)

  /**
   * The selection and the creation requests one change of the picker
   * produces: every selected label is an existing label named by one of the
   * values, and every requested name passed the validator.
   */
  function OnChange(
    values: seq<string>, reason: ChangeReason,
    existingLabels: seq<EventLabel>, selectedLabels: seq<EventLabel>,
    validate: (string, seq<string>) -> Option<string>): (r: ChangeOutcome)
    ensures |r.selectedLabels| <= |values|
    ensures forall l :: l in r.selectedLabels ==>
      l in existingLabels && l.name in values && !IsCreateNewValue(l.name)
    ensures forall n :: n in r.labelsToCreate ==> validate(n, LabelNames(existingLabels)).None?
    ensures r.selectedLabels == SelectionFromValues(values, existingLabels)
    ensures r.labelsToCreate == CreationRequests(values, reason, existingLabels, selectedLabels, validate)
  {
    var selection := SelectionFromValues(values, existingLabels);
    var picked := Seqs.Filter(SelectsLabelIn(existingLabels), values);
    assert forall l :: l in selection ==>
      l in existingLabels && l.name in values && !IsCreateNewValue(l.name) by {
      forall l | l in selection
        ensures l in existingLabels && l.name in values && !IsCreateNewValue(l.name)
      {
        var i :| 0 <= i < |selection| && selection[i] == l;
        assert LabelNamed(existingLabels, picked[i]) == Some(l);
        assert picked[i] in picked;
      }
    }
    ChangeOutcome(
      selection,
      CreationRequests(values, reason, existingLabels, selectedLabels, validate))
  }

  /** No two existing labels share a name. */
  predicate DistinctNames(labels: seq<EventLabel>) {
    forall i, j :: 0 <= i < j < |labels| ==> labels[i].name != labels[j].name
  }

  /**
   * Selection round trip: the picker shows the selected labels' names, and
   * mapping those names back yields the same labels, as long as they are
   * existing labels, names are unique and none is a "create new" marker.
   */
  lemma {:induction false} SelectionRoundTrip(selected: seq<EventLabel>, existingLabels: seq<EventLabel>)
    requires DistinctNames(existingLabels)
    requires forall l :: l in selected ==> l in existingLabels && !IsCreateNewValue(l.name)
    ensures SelectionFromValues(LabelNames(selected), existingLabels) == selected
  {
    if |selected| == 0 {
      SelectionOfNoNames(selected, existingLabels);
    } else {
      assert forall l :: l in selected[1..] ==> l in selected;
      SelectionRoundTrip(selected[1..], existingLabels);
      assert selected[0] in selected;
      SelectionOfNamesStep(selected, existingLabels);
    }
  }

  /** The base case of the round trip: no labels, no names, no selection. */
  lemma SelectionOfNoNames(selected: seq<EventLabel>, existingLabels: seq<EventLabel>)
    requires |selected| == 0
    ensures SelectionFromValues(LabelNames(selected), existingLabels) == selected
  {
    assert LabelNames(selected) == [];
  }

  /** The inductive step of the round trip: the first name maps back to the first label. */
  lemma SelectionOfNamesStep(selected: seq<EventLabel>, existingLabels: seq<EventLabel>)
    requires DistinctNames(existingLabels)
    requires |selected| > 0 && selected[0] in existingLabels && !IsCreateNewValue(selected[0].name)
    requires SelectionFromValues(LabelNames(selected[1..]), existingLabels) == selected[1..]
    ensures SelectionFromValues(LabelNames(selected), existingLabels) == selected
  {
    var values := LabelNames(selected);
    assert values[0] == selected[0].name;
    assert values[1..] == LabelNames(selected[1..]);
    FindByUniqueName(selected[0], existingLabels);
    SelectionStep(values, existingLabels);
    assert selected == [selected[0]] + selected[1..];
  }

  /** One step of the selection: the first value contributes its label, if it selects one. */
  lemma SelectionStep(values: seq<string>, existingLabels: seq<EventLabel>)
    requires |values| > 0
    ensures SelectionFromValues(values, existingLabels) ==
      if IsCreateNewValue(values[0]) || LabelNamed(existingLabels, values[0]).None?
      then SelectionFromValues(values[1..], existingLabels)
      else [LabelNamed(existingLabels, values[0]).value] + SelectionFromValues(values[1..], existingLabels)
  {
  }

  /** Looking an existing label up by its name finds that label when names are unique. */
  lemma FindByUniqueName(l: EventLabel, existingLabels: seq<EventLabel>)
    requires DistinctNames(existingLabels) && l in existingLabels
    ensures LabelNamed(existingLabels, l.name) == Some(l)
  {
    var found := LabelNamed(existingLabels, l.name);
    var k :| 0 <= k < |existingLabels| && existingLabels[k] == l;
    var m :| 0 <= m < |existingLabels| && existingLabels[m] == found.value;
    assert m == k;
  }

  /** A "create new" value at the end of the values does not change the selection. */
  lemma {:induction false} CreateNewValueKeepsSelection(values: seq<string>, v: string, existingLabels: seq<EventLabel>)
    requires IsCreateNewValue(v)
    ensures SelectionFromValues(values + [v], existingLabels) == SelectionFromValues(values, existingLabels)
  {
    if |values| == 0 {
      assert values + [v] == [v];
      assert ([v])[1..] == [];
    } else {
      assert (values + [v])[1..] == values[1..] + [v];
      CreateNewValueKeepsSelection(values[1..], v, existingLabels);
    }
  }

  /**
   * Picking the "create new" option keeps the current selection and requests
   * the typed name, exactly when the validator accepts it.
   */
  lemma PickingCreateOption(
    selected: seq<EventLabel>, existingLabels: seq<EventLabel>, inputValue: string,
    validate: (string, seq<string>) -> Option<string>)
    requires DistinctNames(existingLabels)
    requires forall l :: l in selected ==> l in existingLabels && !IsCreateNewValue(l.name)
    ensures var outcome := OnChange(LabelNames(selected) + [CREATE_NEW_LABEL_PREFIX + inputValue],
                                    SelectOption, existingLabels, selected, validate);
      && outcome.selectedLabels == selected
      && outcome.labelsToCreate == HandleCreateNewLabel(inputValue, existingLabels, validate)
  {
    var v := CREATE_NEW_LABEL_PREFIX + inputValue;
    var values := LabelNames(selected) + [v];
    RemoveFirstOfPrefix(CREATE_NEW_LABEL_PREFIX, inputValue);
    CreateNewValueKeepsSelection(LabelNames(selected), v, existingLabels);
    SelectionRoundTrip(selected, existingLabels);
    forall i | 0 <= i < |LabelNames(selected)|
      ensures !IsCreateNewValue(LabelNames(selected)[i])
    {
      assert selected[i] in selected;
    }
    CreateOptionNamesOfTrailingMarker(LabelNames(selected), v);
    CreationRequestsOfOneName(values, existingLabels, selected, validate, inputValue);
  }

  /** Values that carry one "create new" option, at the end, ask for exactly its name. */
  lemma CreateOptionNamesOfTrailingMarker(names: seq<string>, v: string)
    requires forall i :: 0 <= i < |names| ==> !IsCreateNewValue(names[i])
    requires IsCreateNewValue(v)
    ensures CreateOptionNames(names + [v]) == [RemoveFirst(v, CREATE_NEW_LABEL_PREFIX)]
  {
    MarkersOfTrailingMarker(names, v);
    CreateOptionNamesOfOneMarker(names + [v], v);
  }

  /** Values whose only "create new" value is `v` ask for exactly its name. */
  lemma CreateOptionNamesOfOneMarker(values: seq<string>, v: string)
    requires Seqs.Filter(IsCreateNewValue, values) == [v]
    ensures CreateOptionNames(values) == [RemoveFirst(v, CREATE_NEW_LABEL_PREFIX)]
  {
    var r := CreateOptionNames(values);
    assert |r| == 1;
    assert r == [r[0]];
  }

  /** The only "create new" value among marker-free values and one trailing marker is that marker. */
  lemma MarkersOfTrailingMarker(names: seq<string>, v: string)
    requires forall i :: 0 <= i < |names| ==> !IsCreateNewValue(names[i])
    requires IsCreateNewValue(v)
    ensures Seqs.Filter(IsCreateNewValue, names + [v]) == [v]
  {
    Seqs.FilterConcat(IsCreateNewValue, names, [v]);
    Seqs.FilterNone(IsCreateNewValue, names);
    Seqs.FilterCons(IsCreateNewValue, [v]);
    assert [v][1..] == [];
  }

  /** A selection change that carries one typed name asks to create it exactly when the validator accepts it. */
  lemma CreationRequestsOfOneName(
    values: seq<string>, existingLabels: seq<EventLabel>, selectedLabels: seq<EventLabel>,
    validate: (string, seq<string>) -> Option<string>, name: string)
    requires CreateOptionNames(values) == [name]
    ensures CreationRequests(values, SelectOption, existingLabels, selectedLabels, validate)
         == HandleCreateNewLabel(name, existingLabels, validate)
  {
    var accepted := AcceptedBy(validate, LabelNames(existingLabels));
    assert TypedNewNames(values, SelectOption, existingLabels, selectedLabels) == [];
    assert [name] + [] == [name];
    Seqs.FilterCons(accepted, [name]);
    assert [name][1..] == [];
  }
}

=== FILE: js_values.dfy ===
/**
 * The few pieces of JavaScript value semantics the application logic relies on:
 * `undefined`/`null` as an absent value, truthiness of strings and the `||`
 * fallback, `toLowerCase`, `startsWith`, `includes` and `replace` on strings.
 */
module JsValues {

  /** An optional value: `None` stands for `undefined` or `null`. */
  datatype Option<+T> = None | Some(value: T) {

    /** The value, or `default` when absent. */
    function GetOr(default: T): T {
      match this
      case Some(v) => v
      case None => default
    }
  }

  /** How many UTF-16 code units encode `c`: two for a character outside the Basic Multilingual Plane. */
  function CodeUnits(c: char): nat {
    if c as int >= 0x1_0000 then 2 else 1
  }

  /**
   * `s.length`: the number of UTF-16 code units, so every character outside
   * the Basic Multilingual Plane (a surrogate pair) counts twice.
   */
  function JsLength(s: string): (r: nat)
    ensures |s| <= r <= 2 * |s|
    ensures r == 0 <==> |s| == 0
    ensures (forall i :: 0 <= i < |s| ==> s[i] as int < 0x1_0000) ==> r == |s|
  {
    if |s| == 0 then 0 else CodeUnits(s[0]) + JsLength(s[1..])
  }

  /** The length of a concatenation is the sum of the lengths. */
  lemma {:induction false} JsLengthConcat(a: string, b: string)
    ensures JsLength(a + b) == JsLength(a) + JsLength(b)
  {
    if |a| > 0 {
      assert (a + b)[0] == a[0];
      assert (a + b)[1..] == a[1..] + b;
      JsLengthConcat(a[1..], b);
    } else {
      assert a + b == b;
    }
  }

  /** A string made only of characters outside the Basic Multilingual Plane has twice as many code units as characters. */
  lemma {:induction false} JsLengthOutsideBmp(s: string)
    requires forall i :: 0 <= i < |s| ==> s[i] as int >= 0x1_0000
    ensures JsLength(s) == 2 * |s|
  {
    if |s| > 0 {
      JsLengthOutsideBmp(s[1..]);
    }
  }

  /** A string is truthy exactly when it is not empty. */
  predicate Truthy(s: string) {
    |s| > 0
  }

  /** `s || fallback` for an optional string: absent and empty strings both fall through. */
  function OrElse(s: Option<string>, fallback: string): (r: string)
    ensures s.Some? && Truthy(s.value) ==> r == s.value
    ensures s.None? || !Truthy(s.value) ==> r == fallback
  {
    if s.Some? && Truthy(s.value) then s.value else fallback
  }

  /** `toLowerCase` on one character; only the ASCII letters are mapped. */
  function LowerChar(c: char): char {
    if 'A' <= c <= 'Z' then (c as int - 'A' as int + 'a' as int) as char else c
  }

  /** `toLowerCase` on a string, character by character. */
  function ToLowerCase(s: string): (r: string)
    ensures |r| == |s|
    ensures forall i :: 0 <= i < |s| ==> r[i] == LowerChar(s[i])
  {
    seq(|s|, i requires 0 <= i < |s| => LowerChar(s[i]))
  }

  /** `s.startsWith(prefix)`. */
  predicate StartsWith(s: string, prefix: string) {
    |prefix| <= |s| && s[..|prefix|] == prefix
  }

  /** `sub` occurs in `s` starting at position `i`. */
  predicate OccursAt(s: string, sub: string, i: int) {
    0 <= i && i + |sub| <= |s| && s[i..i + |sub|] == sub
  }

  /**
   * The first position at which `sub` occurs in `s` at or after `from`
   * (`s.indexOf(sub, from)`), scanning left to right.
   */
  function IndexOfFrom(s: string, sub: string, from: nat): (r: Option<nat>)
    decreases |s| - from
    ensures r.Some? ==> from <= r.value && OccursAt(s, sub, r.value)
    ensures r.Some? ==> forall j :: from <= j < r.value ==> !OccursAt(s, sub, j)
    ensures r.None? ==> forall j :: from <= j ==> !OccursAt(s, sub, j)
  {
    if from + |sub| > |s| then None
    else if s[from..from + |sub|] == sub then Some(from)
    else IndexOfFrom(s, sub, from + 1)
  }

  /** `s.indexOf(sub)`: the first occurrence, if any. */
  function IndexOf(s: string, sub: string): (r: Option<nat>)
    ensures r.Some? ==> OccursAt(s, sub, r.value)
    ensures r.Some? ==> forall j :: 0 <= j < r.value ==> !OccursAt(s, sub, j)
    ensures r.None? <==> forall j :: !OccursAt(s, sub, j)
  {
    IndexOfFrom(s, sub, 0)
  }

  /** `s.includes(sub)`. */
  predicate Includes(s: string, sub: string) {
    IndexOf(s, sub).Some?
  }

  /** `s.replace(pattern, "")` with a string pattern: removes the first occurrence only. */
  function RemoveFirst(s: string, pattern: string): (r: string)
    ensures IndexOf(s, pattern).None? ==> r == s
    ensures IndexOf(s, pattern).Some? ==> |r| == |s| - |pattern|
  {
    match IndexOf(s, pattern)
    case None => s
    case Some(i) => s[..i] + s[i + |pattern|..]
  }

  /** Removing the first occurrence of a prefix the string starts with yields the rest. */
  lemma RemoveFirstOfPrefix(prefix: string, rest: string)
    ensures StartsWith(prefix + rest, prefix)
    ensures RemoveFirst(prefix + rest, prefix) == rest
  {
    var s := prefix + rest;
    assert s[..|prefix|] == prefix;
    assert OccursAt(s, prefix, 0);
    assert IndexOf(s, prefix) == Some(0);
    assert s[|prefix|..] == rest;
  }

  /** The empty string is included in every string, including after case folding. */
  lemma IncludesEmpty(s: string)
    ensures Includes(s, "")
  {
    assert OccursAt(s, "", 0);
  }
}

=== FILE: loggable_event_card.dfy ===
/**
 * The helpers of the card that shows one loggable event: converting the
 * GraphQL fragment into an event, the labels the card shows, the most recent
 * record that is not in the future, the records listed, and when "Log Today"
 * and a date in the picker are disabled. Parsing an ISO date string, the
 * day difference between two dates and the calendar day of a date come from
 * helpers that are not part of this model; they are parameters.
 */
module LoggableEventCard {
  import opened JsValues
  import Seqs
  import opened Types

  /** How many records the card lists. */
  const MAX_RECORDS_TO_DISPLAY: nat := 5

  datatype EventLabelFragment = EventLabelFragment(id: string, name: string, createdAt: string)

  /** The event as the server sends it: dates as ISO strings, labels as objects, labels possibly missing. */
  datatype LoggableEventFragment = LoggableEventFragment(
    id: string,
    name: string,
    timestamps: seq<string>,
    createdAt: string,
    warningThresholdInDays: int,
    labels: Option<seq<EventLabelFragment>>)

  /**
   * The event built from a fragment: same id, name and threshold, one date per
   * timestamp string, the label ids in order (none when labels are missing),
   * and marked as synced.
   */
  function CreateLoggableEventFromFragment(f: LoggableEventFragment, parseDate: string -> int): (r: LoggableEvent)
    ensures r.id == f.id && r.name == f.name && r.warningThresholdInDays == f.warningThresholdInDays
    ensures |r.timestamps| == |f.timestamps|
    ensures forall i :: 0 <= i < |f.timestamps| ==> r.timestamps[i] == parseDate(f.timestamps[i])
    ensures r.createdAt == parseDate(f.createdAt)
    ensures r.labelIds.Some?
    ensures f.labels.None? ==> r.labelIds.value == []
    ensures f.labels.Some? ==>
      && |r.labelIds.value| == |f.labels.value|
      && forall i :: 0 <= i < |f.labels.value| ==> r.labelIds.value[i] == f.labels.value[i].id
    ensures r.isSynced
  {
    LoggableEvent(
      f.id,
      f.name,
      Seqs.Map(parseDate, f.timestamps),
      parseDate(f.createdAt),
      f.warningThresholdInDays,
      Some(if f.labels.Some? then Seqs.Map((l: EventLabelFragment) => l.id, f.labels.value) else []),
      true)
  }

  /** The labels the card shows: the known labels the event carries, in the order of the label list. */
  function EventLabelObjects(labelIds: Option<seq<string>>, eventLabels: seq<EventLabel>): (r: seq<EventLabel>)
    ensures labelIds.None? ==> r == []
    ensures labelIds.Some? ==>
      && Seqs.IsSubsequence(r, eventLabels)
      && (forall l :: l in r <==> l in eventLabels && l.id in labelIds.value)
      && forall l :: multiset(r)[l] == if l.id in labelIds.value then multiset(eventLabels)[l] else 0
  {
    if labelIds.Some? then Seqs.Filter((l: EventLabel) => l.id in labelIds.value, eventLabels) else []
  }

  /** A card built from a fragment shows exactly the known labels whose id appears among the fragment's labels. */
  lemma FragmentLabelsShown(f: LoggableEventFragment, parseDate: string -> int, eventLabels: seq<EventLabel>, l: EventLabel)
    ensures l in EventLabelObjects(CreateLoggableEventFromFragment(f, parseDate).labelIds, eventLabels)
        <==> l in eventLabels && f.labels.Some? && exists j :: 0 <= j < |f.labels.value| && f.labels.value[j].id == l.id
  {
    var ids := CreateLoggableEventFromFragment(f, parseDate).labelIds.value;
    if l.id in ids {
      var k :| 0 <= k < |ids| && ids[k] == l.id;
      assert f.labels.Some? && f.labels.value[k].id == l.id;
    }
  }

  /** The first recorded date that is not in the future (its day difference to now is not negative). */
  function LastEventRecord(timestamps: seq<int>, currDate: int, daysBetween: (int, int) -> int): (r: Option<int>)
    ensures r.None? <==> forall i :: 0 <= i < |timestamps| ==> daysBetween(timestamps[i], currDate) < 0
    ensures r.Some? ==> exists i :: (0 <= i < |timestamps| && timestamps[i] == r.value
      && daysBetween(r.value, currDate) >= 0
      && forall j :: 0 <= j < i ==> daysBetween(timestamps[j], currDate) < 0)
  {
    Seqs.Find((d: int) => daysBetween(d, currDate) >= 0, timestamps)
  }

  /** Days since that record; undefined when every record lies in the future. */
  function DaysSinceLastEvent(timestamps: seq<int>, currDate: int, daysBetween: (int, int) -> int): (r: Option<int>)
    ensures r.None? <==> forall i :: 0 <= i < |timestamps| ==> daysBetween(timestamps[i], currDate) < 0
    ensures r.Some? ==> r.value >= 0
    ensures r.Some? ==> r.value == daysBetween(LastEventRecord(timestamps, currDate, daysBetween).value, currDate)
  {
    match LastEventRecord(timestamps, currDate, daysBetween)
    case None => None
    case Some(last) => Some(daysBetween(last, currDate))
  }

  /** "Log Today" is disabled while the last record is from today. */
  predicate LogTodayDisabled(timestamps: seq<int>, currDate: int, daysBetween: (int, int) -> int) {
    DaysSinceLastEvent(timestamps, currDate, daysBetween) == Some(0)
  }

  /**
   * With records kept newest-first and a day difference that shrinks as the
   * date gets later, "Log Today" is disabled exactly when some record is from today.
   */
  lemma LogTodayDisabledIffLoggedToday(timestamps: seq<int>, currDate: int, daysBetween: (int, int) -> int)
    requires forall i, j :: 0 <= i < j < |timestamps| ==> timestamps[i] >= timestamps[j]
    requires forall a, b :: a >= b ==> daysBetween(a, currDate) <= daysBetween(b, currDate)
    ensures LogTodayDisabled(timestamps, currDate, daysBetween)
        <==> exists i :: 0 <= i < |timestamps| && daysBetween(timestamps[i], currDate) == 0
  {
    if i :| 0 <= i < |timestamps| && daysBetween(timestamps[i], currDate) == 0 {
      var last := LastEventRecord(timestamps, currDate, daysBetween);
      var k :| 0 <= k < |timestamps| && timestamps[k] == last.value
        && daysBetween(last.value, currDate) >= 0
        && forall j :: 0 <= j < k ==> daysBetween(timestamps[j], currDate) < 0;
      assert k <= i;
      assert timestamps[k] >= timestamps[i];
    }
  }

  /** The records heading says the list is capped once there are at least five records. */
  predicate ShowsCappedNote(timestamps: seq<int>) {
    |timestamps| >= MAX_RECORDS_TO_DISPLAY
  }

  /** The records the card lists: the first MAX_RECORDS_TO_DISPLAY of them (the most recent ones). */
  function RecordsToDisplay(timestamps: seq<int>): (r: seq<int>)
    ensures |r| <= MAX_RECORDS_TO_DISPLAY
    ensures |r| == if |timestamps| < MAX_RECORDS_TO_DISPLAY then |timestamps| else MAX_RECORDS_TO_DISPLAY
    ensures r == timestamps[..|r|]
    ensures ShowsCappedNote(timestamps) <==> |r| == MAX_RECORDS_TO_DISPLAY
  {
    if |timestamps| <= MAX_RECORDS_TO_DISPLAY then timestamps else timestamps[..MAX_RECORDS_TO_DISPLAY]
  }

  /** A picker date is disabled when a record already falls on that calendar day. */
  function ShouldDisableDate(timestamps: seq<int>, date: int, calendarDay: int -> int): (r: bool)
    ensures r <==> exists i :: 0 <= i < |timestamps| && calendarDay(timestamps[i]) == calendarDay(date)
  {
    Seqs.Any((record: int) => calendarDay(record) == calendarDay(date), timestamps)
  }

  /** The date a log click records: the picked date, or now when none was picked. */
  function DateToLog(dateToAdd: Option<int>, currDate: int): (r: int)
    ensures dateToAdd.Some? ==> r == dateToAdd.value
    ensures dateToAdd.None? ==> r == currDate
  {
    dateToAdd.GetOr(currDate)
  }
}

=== FILE: loggable_events_list.dfy ===
/**
 * The list of event cards: three placeholder cards while data is loading
 * online, otherwise one card per event, narrowed to the active label.
 */
module LoggableEventsList {
  import opened JsValues
  import Seqs
  import opened Types

  /** One rendered list item. */
  datatype ListItem = Skeleton | Card(eventId: string)

  /** The number of placeholder cards shown while loading. */
  const SKELETON_COUNT: nat := 3

  /** The event carries the label; an event whose label ids are null carries none. */
  predicate HasLabel(e: LoggableEvent, labelId: string) {
    e.labelIds.Some? && labelId in e.labelIds.value
  }

  /**
   * The events shown under the active label: all of them when no label is
   * active (absent or empty id), otherwise exactly those carrying the label,
   * in their original order.
   */
  function FilteredEvents(loggableEvents: seq<LoggableEvent>, activeEventLabelId: Option<string>): (r: seq<LoggableEvent>)
    ensures activeEventLabelId.None? || activeEventLabelId.value == "" ==> r == loggableEvents
    ensures activeEventLabelId.Some? && activeEventLabelId.value != "" ==>
      && Seqs.IsSubsequence(r, loggableEvents)
      && (forall e :: e in r <==> e in loggableEvents && HasLabel(e, activeEventLabelId.value))
      && (forall e: LoggableEvent :: HasLabel(e, activeEventLabelId.value) ==> multiset(r)[e] == multiset(loggableEvents)[e])
  {
    if activeEventLabelId.Some? && Truthy(activeEventLabelId.value) then
      Seqs.Filter((e: LoggableEvent) => HasLabel(e, activeEventLabelId.value), loggableEvents)
    else loggableEvents
  }

  /** Under an active label, an event whose label ids are null is never shown. */
  lemma NullLabelIdsExcluded(loggableEvents: seq<LoggableEvent>, labelId: string, e: LoggableEvent)
    requires labelId != "" && e.labelIds.None?
    ensures e !in FilteredEvents(loggableEvents, Some(labelId))
  {
  }

  /** A label id that no event carries shows nothing. */
  lemma UnknownLabelShowsNothing(loggableEvents: seq<LoggableEvent>, labelId: string)
    requires labelId != ""
    requires forall i :: 0 <= i < |loggableEvents| ==> !HasLabel(loggableEvents[i], labelId)
    ensures FilteredEvents(loggableEvents, Some(labelId)) == []
  {
  }

  /** The items the list renders. */
  function Render(
    dataIsLoaded: bool, offlineMode: bool,
    loggableEvents: seq<LoggableEvent>, activeEventLabelId: Option<string>): (r: seq<ListItem>)
    ensures !dataIsLoaded && !offlineMode ==> |r| == SKELETON_COUNT && forall i :: 0 <= i < |r| ==> r[i] == Skeleton
    ensures dataIsLoaded || offlineMode ==>
      var shown := FilteredEvents(loggableEvents, activeEventLabelId);
      |r| == |shown| && forall i :: 0 <= i < |r| ==> r[i] == Card(shown[i].id)
  {
    if !dataIsLoaded && !offlineMode then [Skeleton, Skeleton, Skeleton]
    else Seqs.Map((e: LoggableEvent) => Card(e.id), FilteredEvents(loggableEvents, activeEventLabelId))
  }
}

=== FILE: loggable_events_provider.dfy ===
/**
 * The client-side store of loggable events and event labels kept by the
 * provider component. Each exported operation first (or afterwards) talks to
 * the backend and then replaces the list it owns with a new list computed from
 * the previous one; only those list updaters are modelled here. Ids the
 * backend or `uuid` would supply, and the dates being logged, are parameters.
 */
module LoggableEventsProvider {
  import opened JsValues
  import Seqs
  import opened Timestamps

  /** A label in this provider's own record shape (alias and colour alias). */
  datatype EventLabel = EventLabel(id: string, alias: string, colorAlias: string)

  /** A loggable event; timestamps are dates in milliseconds. */
  datatype LoggableEvent = LoggableEvent(
    id: string,
    name: string,
    timestamps: seq<int>,
    active: bool,
    warningThresholdInDays: int,
    labelIds: seq<string>)

  /** The values a freshly created event starts from. */
  const EVENT_DEFAULT_VALUES: LoggableEvent := LoggableEvent("", "", [], true, 7, [])

  /** No two events (or labels) in a list share an id. */
  predicate UniqueEventIds(events: seq<LoggableEvent>) {
    forall i, j :: 0 <= i < j < |events| ==> events[i].id != events[j].id
  }

  predicate UniqueLabelIds(labels: seq<EventLabel>) {
    forall i, j :: 0 <= i < j < |labels| ==> labels[i].id != labels[j].id
  }

  /** The id an entity created through the backend receives: the server's id if it sent a non-empty one, else a fresh one. */
  function AssignedId(responseId: Option<string>, freshId: string): string {
    OrElse(responseId, freshId)
  }

  /**
   * Create a new loggable event: the new event, built from the defaults with
   * the given name, threshold and label ids, goes in front of the previous list.
   */
  function CreateLoggableEvent(
    prev: seq<LoggableEvent>, newEventName: string, warningThresholdInDays: int,
    labelIds: seq<string>, responseId: Option<string>, freshId: string): (r: seq<LoggableEvent>)
    ensures |r| == |prev| + 1
    ensures r[1..] == prev
    ensures r[0].name == newEventName
    ensures r[0].warningThresholdInDays == warningThresholdInDays
    ensures r[0].labelIds == labelIds
    ensures r[0].timestamps == [] && r[0].active
    ensures responseId.Some? && responseId.value != "" ==> r[0].id == responseId.value
    ensures responseId.None? || responseId.value == "" ==> r[0].id == freshId
  {
    [EVENT_DEFAULT_VALUES.(
      id := AssignedId(responseId, freshId),
      name := newEventName,
      warningThresholdInDays := warningThresholdInDays,
      labelIds := labelIds)]
    + prev
  }

  /** The event with `eventId`, with `dateToAdd` merged into its newest-first timestamps. */
  function WithTimestamp(e: LoggableEvent, eventId: string, dateToAdd: int): LoggableEvent {
    if e.id != eventId then e
    else e.(timestamps := SortNewestFirst(e.timestamps + [dateToAdd]))
  }

  /**
   * Add a date to the event whose id matches. Only that event changes, and
   * only in its timestamps, which stay newest-first and gain exactly the new date.
   */
  function AddTimestampToEvent(prev: seq<LoggableEvent>, eventId: string, dateToAdd: int): (r: seq<LoggableEvent>)
    ensures |r| == |prev|
    ensures forall i :: 0 <= i < |prev| && prev[i].id != eventId ==> r[i] == prev[i]
    ensures forall i :: 0 <= i < |prev| && prev[i].id == eventId ==>
      && r[i] == prev[i].(timestamps := r[i].timestamps)
      && NewestFirst(r[i].timestamps)
      && multiset(r[i].timestamps) == multiset(prev[i].timestamps) + multiset{dateToAdd}
  {
    var r := Seqs.Map(e => WithTimestamp(e, eventId, dateToAdd), prev);
    assert forall i :: 0 <= i < |prev| ==> multiset(prev[i].timestamps + [dateToAdd]) == multiset(prev[i].timestamps) + multiset{dateToAdd};
    r
  }

  /** Adding a date to an id no event has leaves the list as it was. */
  lemma AddTimestampUnknownId(prev: seq<LoggableEvent>, eventId: string, dateToAdd: int)
    requires forall i :: 0 <= i < |prev| ==> prev[i].id != eventId
    ensures AddTimestampToEvent(prev, eventId, dateToAdd) == prev
  {
    var r := AddTimestampToEvent(prev, eventId, dateToAdd);
    assert forall i :: 0 <= i < |prev| ==> r[i] == prev[i];
  }

  /** When the target's timestamps were already newest-first, the new date is inserted in place. */
  lemma AddTimestampInsertsInPlace(prev: seq<LoggableEvent>, eventId: string, dateToAdd: int, i: int)
    requires 0 <= i < |prev| && prev[i].id == eventId
    requires NewestFirst(prev[i].timestamps)
    ensures AddTimestampToEvent(prev, eventId, dateToAdd)[i].timestamps == Insert(dateToAdd, prev[i].timestamps)
  {
    SortAppendedIsInsert(prev[i].timestamps, dateToAdd);
  }

  /** The event with `updated.id`, with the four editable details taken from `updated`. */
  function WithDetails(e: LoggableEvent, updated: LoggableEvent): LoggableEvent {
    if e.id != updated.id then e
    else e.(
      name := updated.name,
      active := updated.active,
      warningThresholdInDays := updated.warningThresholdInDays,
      labelIds := updated.labelIds)
  }

  /**
   * Update the details of the event whose id matches: name, active flag,
   * threshold and label ids come from `updated`; id and timestamps are kept.
   */
  function UpdateLoggableEventDetails(prev: seq<LoggableEvent>, updated: LoggableEvent): (r: seq<LoggableEvent>)
    ensures |r| == |prev|
    ensures forall i :: 0 <= i < |prev| && prev[i].id != updated.id ==> r[i] == prev[i]
    ensures forall i :: 0 <= i < |prev| && prev[i].id == updated.id ==>
      && r[i].id == prev[i].id
      && r[i].timestamps == prev[i].timestamps
      && r[i].name == updated.name
      && r[i].active == updated.active
      && r[i].warningThresholdInDays == updated.warningThresholdInDays
      && r[i].labelIds == updated.labelIds
  {
    Seqs.Map(e => WithDetails(e, updated), prev)
  }

  /** Applying the same details update twice is the same as applying it once. */
  lemma UpdateDetailsIdempotent(prev: seq<LoggableEvent>, updated: LoggableEvent)
    ensures UpdateLoggableEventDetails(UpdateLoggableEventDetails(prev, updated), updated)
         == UpdateLoggableEventDetails(prev, updated)
  {
    var once := UpdateLoggableEventDetails(prev, updated);
    var twice := UpdateLoggableEventDetails(once, updated);
    assert forall i :: 0 <= i < |prev| ==> twice[i] == once[i];
  }

  /** Delete an event: no event with that id remains, and the others keep their order and multiplicity. */
  function RemoveLoggableEvent(prev: seq<LoggableEvent>, eventIdToRemove: string): (r: seq<LoggableEvent>)
    ensures forall e :: e in r <==> e in prev && e.id != eventIdToRemove
    ensures forall e: LoggableEvent :: e.id != eventIdToRemove ==> multiset(r)[e] == multiset(prev)[e]
    ensures Seqs.IsSubsequence(r, prev)
  {
    Seqs.Filter((e: LoggableEvent) => e.id != eventIdToRemove, prev)
  }

  /** Removing the event that was just created, under an id no older event has, restores the list. */
  lemma CreateThenRemove(
    prev: seq<LoggableEvent>, newEventName: string, warningThresholdInDays: int,
    labelIds: seq<string>, responseId: Option<string>, freshId: string)
    requires forall i :: 0 <= i < |prev| ==> prev[i].id != AssignedId(responseId, freshId)
    ensures RemoveLoggableEvent(
      CreateLoggableEvent(prev, newEventName, warningThresholdInDays, labelIds, responseId, freshId),
      AssignedId(responseId, freshId)) == prev
  {
    var newId := AssignedId(responseId, freshId);
    var p := (e: LoggableEvent) => e.id != newId;
    var created := CreateLoggableEvent(prev, newEventName, warningThresholdInDays, labelIds, responseId, freshId);
    assert created[1..] == prev;
    Seqs.FilterAll(p, prev);
  }

  /** Create a label: it is appended after the existing ones. */
  function CreateEventLabel(
    prev: seq<EventLabel>, alias: string, colorAlias: string,
    responseId: Option<string>, freshId: string): (r: seq<EventLabel>)
    ensures |r| == |prev| + 1
    ensures r[..|prev|] == prev
    ensures r[|prev|].alias == alias && r[|prev|].colorAlias == colorAlias
    ensures responseId.Some? && responseId.value != "" ==> r[|prev|].id == responseId.value
    ensures responseId.None? || responseId.value == "" ==> r[|prev|].id == freshId
  {
    prev + [EventLabel(AssignedId(responseId, freshId), alias, colorAlias)]
  }

  /** The label with `eventLabelId`, renamed and recoloured. */
  function WithAlias(l: EventLabel, eventLabelId: string, alias: string, colorAlias: string): EventLabel {
    if l.id != eventLabelId then l else l.(alias := alias, colorAlias := colorAlias)
  }

  /** Update a label: only the alias and colour alias of the label with that id change. */
  function UpdateEventLabel(prev: seq<EventLabel>, eventLabelId: string, alias: string, colorAlias: string): (r: seq<EventLabel>)
    ensures |r| == |prev|
    ensures forall i :: 0 <= i < |prev| && prev[i].id != eventLabelId ==> r[i] == prev[i]
    ensures forall i :: 0 <= i < |prev| && prev[i].id == eventLabelId ==>
      r[i] == EventLabel(prev[i].id, alias, colorAlias)
  {
    Seqs.Map(l => WithAlias(l, eventLabelId, alias, colorAlias), prev)
  }

  /** Delete a label: exactly the labels with that id go, the rest keep their order. */
  function DeleteEventLabel(prev: seq<EventLabel>, eventLabelIdToRemove: string): (r: seq<EventLabel>)
    ensures forall l :: l in r <==> l in prev && l.id != eventLabelIdToRemove
    ensures forall l: EventLabel :: l.id != eventLabelIdToRemove ==> multiset(r)[l] == multiset(prev)[l]
    ensures Seqs.IsSubsequence(r, prev)
  {
    Seqs.Filter((l: EventLabel) => l.id != eventLabelIdToRemove, prev)
  }

  /** Deleting the label that was just created, under an id no older label has, restores the list. */
  lemma CreateLabelThenDelete(
    prev: seq<EventLabel>, alias: string, colorAlias: string, responseId: Option<string>, freshId: string)
    requires forall i :: 0 <= i < |prev| ==> prev[i].id != AssignedId(responseId, freshId)
    ensures DeleteEventLabel(CreateEventLabel(prev, alias, colorAlias, responseId, freshId),
                             AssignedId(responseId, freshId)) == prev
  {
    var newId := AssignedId(responseId, freshId);
    var p := (l: EventLabel) => l.id != newId;
    var created := CreateEventLabel(prev, alias, colorAlias, responseId, freshId);
    Seqs.FilterAll(p, prev);
    FilterDropsLast(p, prev, created[|prev|]);
    assert created == prev + [created[|prev|]];
  }

  /** Filtering `s + [x]` when `x` fails the predicate is filtering `s`. */
  lemma {:induction false} FilterDropsLast<T(!new)>(p: T -> bool, s: seq<T>, x: T)
    requires !p(x)
    ensures Seqs.Filter(p, s + [x]) == Seqs.Filter(p, s)
  {
    if |s| == 0 {
      assert s + [x] == [x];
    } else {
      assert (s + [x])[1..] == s[1..] + [x];
      FilterDropsLast(p, s[1..], x);
    }
  }

  /** One state change of the provider, with the ids and dates it needs already chosen. */
  datatype Action =
    | CreateEvent(name: string, threshold: int, labelIds: seq<string>, responseId: Option<string>, freshId: string)
    | AddTimestamp(eventId: string, date: int)
    | UpdateDetails(updated: LoggableEvent)
    | RemoveEvent(eventId: string)
    | CreateLabel(alias: string, colorAlias: string, responseId: Option<string>, freshId: string)
    | UpdateLabel(labelId: string, alias: string, colorAlias: string)
    | DeleteLabel(labelId: string)

  datatype State = State(loggableEvents: seq<LoggableEvent>, eventLabels: seq<EventLabel>)

  /** The provider's state after one action. */
  function Step(s: State, a: Action): State {
    match a
    case CreateEvent(name, threshold, labelIds, responseId, freshId) =>
      s.(loggableEvents := CreateLoggableEvent(s.loggableEvents, name, threshold, labelIds, responseId, freshId))
    case AddTimestamp(eventId, date) =>
      s.(loggableEvents := AddTimestampToEvent(s.loggableEvents, eventId, date))
    case UpdateDetails(updated) =>
      s.(loggableEvents := UpdateLoggableEventDetails(s.loggableEvents, updated))
    case RemoveEvent(eventId) =>
      s.(loggableEvents := RemoveLoggableEvent(s.loggableEvents, eventId))
    case CreateLabel(alias, colorAlias, responseId, freshId) =>
      s.(eventLabels := CreateEventLabel(s.eventLabels, alias, colorAlias, responseId, freshId))
    case UpdateLabel(labelId, alias, colorAlias) =>
      s.(eventLabels := UpdateEventLabel(s.eventLabels, labelId, alias, colorAlias))
    case DeleteLabel(labelId) =>
      s.(eventLabels := DeleteEventLabel(s.eventLabels, labelId))
  }

  /** The id a creating action would assign is not yet in use. */
  predicate FreshFor(s: State, a: Action) {
    match a
    case CreateEvent(_, _, _, responseId, freshId) =>
      forall i :: 0 <= i < |s.loggableEvents| ==> s.loggableEvents[i].id != AssignedId(responseId, freshId)
    case CreateLabel(_, _, responseId, freshId) =>
      forall i :: 0 <= i < |s.eventLabels| ==> s.eventLabels[i].id != AssignedId(responseId, freshId)
    case _ => true
  }

  /** Every action keeps ids unique, provided creations get an unused id. */
  lemma StepPreservesUniqueIds(s: State, a: Action)
    requires UniqueEventIds(s.loggableEvents) && UniqueLabelIds(s.eventLabels)
    requires FreshFor(s, a)
    ensures UniqueEventIds(Step(s, a).loggableEvents) && UniqueLabelIds(Step(s, a).eventLabels)
  {
    var t := Step(s, a);
    match a
    case CreateEvent(_, _, _, _, _) =>
      assert t.loggableEvents[1..] == s.loggableEvents;
      forall i, j | 0 <= i < j < |t.loggableEvents|
        ensures t.loggableEvents[i].id != t.loggableEvents[j].id
      {
        if i > 0 {
          assert t.loggableEvents[i] == s.loggableEvents[i - 1];
        }
        assert t.loggableEvents[j] == s.loggableEvents[j - 1];
      }
    case RemoveEvent(eventId) =>
      Seqs.SubsequencePreservesPairwise(t.loggableEvents, s.loggableEvents,
        (x: LoggableEvent, y: LoggableEvent) => x.id != y.id);
    case CreateLabel(_, _, _, _) =>
      assert t.eventLabels[..|s.eventLabels|] == s.eventLabels;
    case DeleteLabel(labelId) =>
      Seqs.SubsequencePreservesPairwise(t.eventLabels, s.eventLabels,
        (x: EventLabel, y: EventLabel) => x.id != y.id);
    case _ =>
  }
}

=== FILE: mutations.dfy ===
/**
 * The error handling shared by every wrapper the mutation hooks return: the
 * wrapper awaits the mutation, and when it fails, swallows the error in
 * offline (demo) mode and rethrows it otherwise.
 */
module Mutations {
  import opened JsValues

  /** How an awaited mutation settled: resolved with its payload (`null` when absent), or rejected. */
  datatype Outcome<+T> = Resolved(payload: Option<T>) | Rejected(error: string)

  /** What a call to a wrapper gives its caller: a value, or a thrown error. */
  datatype Call<+T> = Returns(value: T) | Throws(error: string)

  /**
   * A wrapper returning the mutation's payload or `null`: the payload when the
   * mutation resolved, `null` when it failed in offline mode, and the
   * mutation's own error thrown when it failed online.
   */
  function ReturnPayload<T>(outcome: Outcome<T>, isOfflineMode: bool): (r: Call<Option<T>>)
    ensures outcome.Resolved? ==> r == Returns(outcome.payload)
    ensures outcome.Rejected? && isOfflineMode ==> r == Returns(None)
    ensures outcome.Rejected? && !isOfflineMode ==> r == Throws(outcome.error)
  {
    match outcome
    case Resolved(payload) => Returns(payload)
    case Rejected(error) => if isOfflineMode then Returns(None) else Throws(error)
  }

  /**
   * A delete wrapper: `true` once the mutation resolved, `true` too when it
   * failed in offline mode, and the error thrown when it failed online.
   */
  function ReturnTrue<T>(outcome: Outcome<T>, isOfflineMode: bool): (r: Call<bool>)
    ensures r.Returns? ==> r.value
    ensures r.Throws? <==> outcome.Rejected? && !isOfflineMode
    ensures r.Throws? ==> r.error == outcome.error
  {
    match outcome
    case Resolved(_) => Returns(true)
    case Rejected(error) => if isOfflineMode then Returns(true) else Throws(error)
  }

  /** In offline mode no wrapper ever throws, and a payload is only ever the one the mutation resolved with. */
  lemma OfflineNeverThrows<T>(outcome: Outcome<T>)
    ensures ReturnPayload(outcome, true).Returns?
    ensures ReturnTrue(outcome, true) == Returns(true)
    ensures ReturnPayload(outcome, true).value.Some? ==> outcome == Resolved(ReturnPayload(outcome, true).value)
  {
  }

  /** Online, a wrapper throws exactly when its mutation was rejected, and it throws that same error. */
  lemma OnlineThrowsIffRejected<T>(outcome: Outcome<T>)
    ensures ReturnPayload(outcome, false).Throws? <==> outcome.Rejected?
    ensures ReturnTrue(outcome, false).Throws? <==> outcome.Rejected?
    ensures outcome.Rejected? ==> ReturnPayload(outcome, false) == Throws(outcome.error)
  {
  }

  const TEMP_ID_PREFIX := "temp-"

  /** A temporary id: the prefix followed by a uuid, from which the uuid can be read back. */
  function TempId(uuid: string): (r: string)
    ensures StartsWith(r, TEMP_ID_PREFIX)
    ensures RemoveFirst(r, TEMP_ID_PREFIX) == uuid
    ensures |r| == |TEMP_ID_PREFIX| + |uuid|
  {
    RemoveFirstOfPrefix(TEMP_ID_PREFIX, uuid);
    TEMP_ID_PREFIX + uuid
  }

  /** The payload of a delete: the id of the deleted entity. */
  datatype DeletePayload = DeletePayload(id: string)

  /** The delete answer assumed before the server replies: the id that was sent. */
  function OptimisticDelete(id: string): (r: DeletePayload)
    ensures r.id == id
  {
    DeletePayload(id)
  }
}

=== FILE: seqs.dfy ===
/**
 * The array methods the application uses on its lists of records
 * (`filter`, `map`, `find`, `some`, `includes`), written once over `seq`,
 * with contracts that say what each one keeps, drops and preserves.
 */
module Seqs {
  import opened JsValues

  /**
   * `a` is a subsequence of `b`: `a` is obtained from `b` by deleting
   * elements, without reordering the rest. Matching greedily is complete.
   */
  predicate IsSubsequence<T(==)>(a: seq<T>, b: seq<T>)
    decreases |b|
  {
    if |a| == 0 then true
    else if |b| == 0 then false
    else if a[0] == b[0] then IsSubsequence(a[1..], b[1..])
    else IsSubsequence(a, b[1..])
  }

  /** Every sequence is a subsequence of itself. */
  lemma {:induction false} SubsequenceReflexive<T>(s: seq<T>)
    ensures IsSubsequence(s, s)
  {
    if |s| > 0 {
      SubsequenceReflexive(s[1..]);
    }
  }

  /**
   * `s.filter(p)`: keeps, in order, exactly the elements satisfying `p`,
   * each as many times as it occurs in `s`.
   */
  function Filter<T(==,!new)>(p: T -> bool, s: seq<T>): (r: seq<T>)
    ensures |r| <= |s|
    ensures forall x :: x in r <==> x in s && p(x)
    ensures forall x :: multiset(r)[x] == if p(x) then multiset(s)[x] else 0
    ensures IsSubsequence(r, s)
  {
    if |s| == 0 then []
    else
      var rest := Filter(p, s[1..]);
      assert s == [s[0]] + s[1..];
      assert multiset(s) == multiset{s[0]} + multiset(s[1..]);
      if p(s[0]) then
        assert ([s[0]] + rest)[1..] == rest;
        [s[0]] + rest
      else
        assert |rest| > 0 ==> rest[0] != s[0] by {
          if |rest| > 0 {
            assert rest[0] in rest;
          }
        }
        rest
  }

  /** Filtering with a predicate that holds of every element returns the sequence itself. */
  lemma {:induction false} FilterAll<T(!new)>(p: T -> bool, s: seq<T>)
    requires forall i :: 0 <= i < |s| ==> p(s[i])
    ensures Filter(p, s) == s
  {
    if |s| > 0 {
      FilterAll(p, s[1..]);
    }
  }

  /** One step of `Filter`: the head is kept exactly when it satisfies the predicate. */
  lemma FilterCons<T(!new)>(p: T -> bool, s: seq<T>)
    requires |s| > 0
    ensures Filter(p, s) == if p(s[0]) then [s[0]] + Filter(p, s[1..]) else Filter(p, s[1..])
  {
  }

  /** Filtering twice with the same predicate is filtering once. */
  lemma {:induction false} FilterIdempotent<T(!new)>(p: T -> bool, s: seq<T>)
    ensures Filter(p, Filter(p, s)) == Filter(p, s)
  {
    var r := Filter(p, s);
    forall i | 0 <= i < |r|
      ensures p(r[i])
    {
      assert r[i] in r;
    }
    FilterAll(p, r);
  }

  /** `s.map(f)`. */
  function Map<T, U>(f: T -> U, s: seq<T>): (r: seq<U>)
    ensures |r| == |s|
    ensures forall i :: 0 <= i < |s| ==> r[i] == f(s[i])
  {
    seq(|s|, i requires 0 <= i < |s| => f(s[i]))
  }

  /** `s.findIndex(p)`, with `None` for -1: the position of the first element satisfying `p`. */
  function FirstIndex<T>(p: T -> bool, s: seq<T>): (r: Option<nat>)
    ensures r.None? <==> forall i :: 0 <= i < |s| ==> !p(s[i])
    ensures r.Some? ==> r.value < |s| && p(s[r.value])
    ensures r.Some? ==> forall j :: 0 <= j < r.value ==> !p(s[j])
  {
    if |s| == 0 then None
    else if p(s[0]) then Some(0)
    else
      match FirstIndex(p, s[1..])
      case None => None
      case Some(k) => Some(k + 1)
  }

  /** `s.find(p)`: the first element satisfying `p`, or `undefined`. */
  function Find<T>(p: T -> bool, s: seq<T>): (r: Option<T>)
    ensures r.None? <==> forall i :: 0 <= i < |s| ==> !p(s[i])
    ensures r.Some? ==> r.value in s && p(r.value)
    ensures r.Some? ==> exists i :: 0 <= i < |s| && s[i] == r.value && forall j :: 0 <= j < i ==> !p(s[j])
  {
    match FirstIndex(p, s)
    case None => None
    case Some(i) => Some(s[i])
  }

  /** `s.some(p)`. */
  predicate Any<T>(p: T -> bool, s: seq<T>)
    ensures Any(p, s) <==> exists i :: 0 <= i < |s| && p(s[i])
  {
    FirstIndex(p, s).Some?
  }

  /** Every element of a subsequence is an element of the whole. */
  lemma {:induction false} SubsequenceMembers<T>(a: seq<T>, b: seq<T>)
    requires IsSubsequence(a, b)
    ensures forall x :: x in a ==> x in b
    decreases |b|
  {
    if |a| > 0 && |b| > 0 {
      if a[0] == b[0] {
        SubsequenceMembers(a[1..], b[1..]);
        assert forall x :: x in a ==> x == a[0] || x in a[1..];
      } else {
        SubsequenceMembers(a, b[1..]);
      }
    }
  }

  /**
   * A relation that holds of every ordered pair of distinct positions of `b`
   * holds of every ordered pair of distinct positions of a subsequence of `b`.
   */
  lemma {:induction false} SubsequencePreservesPairwise<T>(a: seq<T>, b: seq<T>, rel: (T, T) -> bool)
    requires IsSubsequence(a, b)
    requires forall i, j :: 0 <= i < j < |b| ==> rel(b[i], b[j])
    ensures forall i, j :: 0 <= i < j < |a| ==> rel(a[i], a[j])
    decreases |b|
  {
    if |a| > 0 && |b| > 0 {
      if a[0] == b[0] {
        SubsequencePreservesPairwise(a[1..], b[1..], rel);
        SubsequenceMembers(a[1..], b[1..]);
        forall i, j | 0 <= i < j < |a|
          ensures rel(a[i], a[j])
        {
          if i == 0 {
            assert a[j] in a[1..];
            var k :| 0 <= k < |b[1..]| && b[1..][k] == a[j];
            assert rel(b[0], b[k + 1]);
          } else {
            assert a[i] == a[1..][i - 1] && a[j] == a[1..][j - 1];
          }
        }
      } else {
        SubsequencePreservesPairwise(a, b[1..], rel);
      }
    }
  }

  /** Filtering distributes over concatenation. */
  lemma {:induction false} FilterConcat<T(!new)>(p: T -> bool, a: seq<T>, b: seq<T>)
    ensures Filter(p, a + b) == Filter(p, a) + Filter(p, b)
  {
    if |a| == 0 {
      assert a + b == b;
    } else {
      assert (a + b)[1..] == a[1..] + b;
      FilterConcat(p, a[1..], b);
    }
  }

  /**
   * Keeping the records whose field has a property and then taking that
   * field equals taking the field and then keeping the values with the property.
   */
  lemma {:induction false} MapFilterCommute<T(!new), U(!new)>(f: T -> U, p: U -> bool, q: T -> bool, s: seq<T>)
    requires forall x :: q(x) == p(f(x))
    ensures Map(f, Filter(q, s)) == Filter(p, Map(f, s))
  {
    if |s| > 0 {
      assert Map(f, s)[0] == f(s[0]);
      assert Map(f, s)[1..] == Map(f, s[1..]);
      MapFilterCommute(f, p, q, s[1..]);
      if q(s[0]) {
        assert Map(f, [s[0]] + Filter(q, s[1..])) == [f(s[0])] + Map(f, Filter(q, s[1..]));
      }
    }
  }

  /** Filtering with a predicate that holds of no element yields the empty sequence. */
  lemma FilterNone<T(!new)>(p: T -> bool, s: seq<T>)
    requires forall i :: 0 <= i < |s| ==> !p(s[i])
    ensures Filter(p, s) == []
  {
  }
}

=== FILE: timestamps.dfy ===
/**
 * Dates as integers (milliseconds since the epoch) and the newest-first
 * ordering the provider keeps an event's timestamps in. The comparator that
 * does the sorting lives in a helper module that is not part of this model;
 * it orders dates by time, latest first. Every sort that returns a
 * newest-first permutation of the same integers returns the same sequence
 * (SortedPermutationUnique), so the model may pick insertion sort.
 */
module Timestamps {

  /** Dates in descending order: each one is no older than the next. */
  predicate NewestFirst(s: seq<int>) {
    forall i, j :: 0 <= i < j < |s| ==> s[i] >= s[j]
  }

  /** Inserts `d` into a newest-first sequence at the first place where it fits. */
  function Insert(d: int, s: seq<int>): (r: seq<int>)
    requires NewestFirst(s)
    ensures NewestFirst(r)
    ensures multiset(r) == multiset(s) + multiset{d}
    ensures |r| == |s| + 1
    ensures r[0] == if |s| > 0 && s[0] > d then s[0] else d
  {
    if |s| == 0 then [d]
    else if d >= s[0] then [d] + s
    else
      var rest := Insert(d, s[1..]);
      assert s == [s[0]] + s[1..];
      [s[0]] + rest
  }

  /** `[...s].sort(newestFirst)` on dates. */
  function SortNewestFirst(s: seq<int>): (r: seq<int>)
    ensures NewestFirst(r)
    ensures multiset(r) == multiset(s)
    ensures |r| == |s|
  {
    if |s| == 0 then []
    else
      assert s == [s[0]] + s[1..];
      Insert(s[0], SortNewestFirst(s[1..]))
  }

  /** The head of a non-empty newest-first sequence is its latest date. */
  lemma HeadIsLatest(s: seq<int>, x: int)
    requires NewestFirst(s) && x in multiset(s)
    ensures |s| > 0 && s[0] >= x
  {
    assert x in s;
  }

  /**
   * Two newest-first orderings of the same dates are the same sequence:
   * the sorted permutation is unique.
   */
  lemma {:induction false} SortedPermutationUnique(a: seq<int>, b: seq<int>)
    requires NewestFirst(a) && NewestFirst(b)
    requires multiset(a) == multiset(b)
    ensures a == b
  {
    if |a| == 0 {
      assert |multiset(b)| == 0;
    } else {
      assert a[0] in multiset(a);
      HeadIsLatest(b, a[0]);
      assert b[0] in multiset(b);
      HeadIsLatest(a, b[0]);
      assert a == [a[0]] + a[1..];
      assert b == [b[0]] + b[1..];
      assert multiset(a) == multiset{a[0]} + multiset(a[1..]);
      assert multiset(b) == multiset{b[0]} + multiset(b[1..]);
      assert a[0] == b[0];
      assert multiset(a[1..]) == multiset(a) - multiset{a[0]};
      assert multiset(b[1..]) == multiset(b) - multiset{b[0]};
      SortedPermutationUnique(a[1..], b[1..]);
    }
  }

  /** Sorting a sequence that is already newest-first leaves it as it is. */
  lemma SortKeepsSorted(s: seq<int>)
    requires NewestFirst(s)
    ensures SortNewestFirst(s) == s
  {
    SortedPermutationUnique(SortNewestFirst(s), s);
  }

  /** Sorting `s + [d]` when `s` is newest-first is inserting `d` into `s`. */
  lemma SortAppendedIsInsert(s: seq<int>, d: int)
    requires NewestFirst(s)
    ensures SortNewestFirst(s + [d]) == Insert(d, s)
  {
    assert multiset(s + [d]) == multiset(s) + multiset{d};
    SortedPermutationUnique(SortNewestFirst(s + [d]), Insert(d, s));
  }
}

=== FILE: types.dfy ===
/**
 * The record shapes the list, card and label components share. The module
 * that declares them in the application is not part of this model; their
 * fields follow how those components and the test mocks use them: labels
 * have a display `name`, and an event's `labelIds` may be `null`.
 */
module Types {
  import opened JsValues

  /** An event label as the components see it. */
  datatype EventLabel = EventLabel(id: string, name: string)

  /** A loggable event as the components see it; dates are in milliseconds. */
  datatype LoggableEvent = LoggableEvent(
    id: string,
    name: string,
    timestamps: seq<int>,
    createdAt: int,
    warningThresholdInDays: int,
    labelIds: Option<seq<string>>,
    isSynced: bool)
}

=== FILE: use_event_labels.dfy ===
/**
 * The `useEventLabels` hook: the optimistic responses of its three label
 * mutations, the cache `update` callbacks of create and delete, and the
 * wrappers it returns. The uuid and the current time are parameters, the
 * awaited mutation is a function from the variables sent to how it settled,
 * and the cache is the abstract per-user view of `ApolloCache`.
 */
module UseEventLabels {
  import opened JsValues
  import opened ApolloCache
  import opened Mutations
  import LoggableEventCard
  import Seqs
  import ApolloClient

  type EventLabelPayload = LoggableEventCard.EventLabelFragment

  const EVENT_LABEL_TYPENAME := "EventLabel"

  datatype CreateEventLabelInput = CreateEventLabelInput(name: string)
  datatype UpdateEventLabelInput = UpdateEventLabelInput(name: string)

  /** The variables a create sends: the caller's input plus a temporary id. */
  datatype CreateEventLabelVariables = CreateEventLabelVariables(name: string, id: string)
  datatype UpdateEventLabelVariables = UpdateEventLabelVariables(id: string, input: UpdateEventLabelInput)

  /** The label shown before the server answers a create: a temporary id, the typed name, the current time. */
  function OptimisticCreate(variables: CreateEventLabelVariables, uuid: string, nowIso: string): (r: EventLabelPayload)
    ensures StartsWith(r.id, TEMP_ID_PREFIX)
    ensures r.name == variables.name && r.createdAt == nowIso
  {
    LoggableEventCard.EventLabelFragment(TempId(uuid), variables.name, nowIso)
  }

  /** The label shown before the server answers an update: the same id with the new name. */
  function OptimisticUpdate(variables: UpdateEventLabelVariables, nowIso: string): (r: EventLabelPayload)
    ensures r.id == variables.id && r.name == variables.input.name
  {
    LoggableEventCard.EventLabelFragment(variables.id, variables.input.name, nowIso)
  }

  /**
   * After a create: the new label is written to the cache and a reference to
   * it is appended at the end of the user's `eventLabels`, the existing
   * references kept before it. Without a payload or a user id nothing changes.
   */
  function UpdateAfterCreate(c: Cache, payload: Option<EventLabelPayload>, user: Option<User>): (r: Cache)
    ensures !CallbackApplies(payload, user) || user.value.id !in c.users ==> r == c
    ensures CallbackApplies(payload, user) && user.value.id in c.users ==>
      && r.users.Keys == c.users.Keys
      && r.users[user.value.id].eventLabels == c.users[user.value.id].eventLabels + [payload.value.id]
      && r.users[user.value.id].loggableEvents == c.users[user.value.id].loggableEvents
      && (forall u :: u in c.users && u != user.value.id ==> u in r.users && r.users[u] == c.users[u])
      && r.entities == c.entities + {EntityKey(EVENT_LABEL_TYPENAME, payload.value.id)}
  {
    AfterCreate(c, EventLabels, EVENT_LABEL_TYPENAME, if payload.Some? then Some(payload.value.id) else None, user)
  }

  /**
   * After a delete: every reference to the deleted id leaves the user's
   * `eventLabels`, the others stay in order, and the label is evicted. Without
   * a payload or a user id nothing changes.
   */
  function UpdateAfterDelete(c: Cache, payload: Option<DeletePayload>, user: Option<User>): (r: Cache)
    ensures !CallbackApplies(payload, user) ==> r == c
    ensures CallbackApplies(payload, user) ==>
      && EntityKey(EVENT_LABEL_TYPENAME, payload.value.id) !in r.entities
      && (forall k :: k in c.entities && k != EntityKey(EVENT_LABEL_TYPENAME, payload.value.id) ==> k in r.entities)
      && r.users.Keys == c.users.Keys
      && (forall u :: u in c.users && u != user.value.id ==> r.users[u] == c.users[u])
    ensures CallbackApplies(payload, user) && user.value.id in c.users ==>
      var before := c.users[user.value.id];
      var after := r.users[user.value.id];
      && payload.value.id !in after.eventLabels
      && (forall x :: x in after.eventLabels <==> x in before.eventLabels && x != payload.value.id)
      && Seqs.IsSubsequence(after.eventLabels, before.eventLabels)
      && (forall x :: x != payload.value.id ==> multiset(after.eventLabels)[x] == multiset(before.eventLabels)[x])
      && after.loggableEvents == before.loggableEvents
  {
    AfterDelete(c, EventLabels, EVENT_LABEL_TYPENAME, if payload.Some? then Some(payload.value.id) else None, user)
  }

  /**
   * Deleting a label right after creating it, for the same user, gives back
   * the cache as it was, provided the label was not cached before.
   */
  lemma CreateThenDeleteRestoresCache(c: Cache, created: EventLabelPayload, user: User)
    requires user.id != "" && user.id in c.users
    requires created.id !in c.users[user.id].eventLabels
    requires EntityKey(EVENT_LABEL_TYPENAME, created.id) !in c.entities
    ensures UpdateAfterDelete(UpdateAfterCreate(c, Some(created), Some(user)), Some(DeletePayload(created.id)), Some(user)) == c
  {
    DeleteUndoesCreate(c, EventLabels, EVENT_LABEL_TYPENAME, created.id, user);
  }

  /** The variables a create sends: the caller's name and a temporary id. */
  function CreateVariables(input: CreateEventLabelInput, uuid: string): (r: CreateEventLabelVariables)
    ensures r.name == input.name && StartsWith(r.id, TEMP_ID_PREFIX)
  {
    CreateEventLabelVariables(input.name, TempId(uuid))
  }

  /**
   * `createEventLabel`: sends the input with a temporary id; returns the
   * created label, or `null` when the payload is missing or when the mutation
   * failed offline; rethrows a failure online.
   */
  function CreateEventLabel(
    input: CreateEventLabelInput, uuid: string, isOfflineMode: bool,
    mutate: CreateEventLabelVariables -> Outcome<EventLabelPayload>): (r: Call<Option<EventLabelPayload>>)
    ensures var outcome := mutate(CreateVariables(input, uuid));
      && (r.Throws? <==> !isOfflineMode && outcome.Rejected?)
      && (r.Returns? && r.value.Some? ==> outcome == Resolved(r.value))
      && (outcome.Resolved? ==> r == Returns(outcome.payload))
  {
    ReturnPayload(mutate(CreateVariables(input, uuid)), isOfflineMode)
  }

  /** `updateEventLabel`: sends the id and input unchanged; same result rules as a create. */
  function UpdateEventLabel(
    id: string, input: UpdateEventLabelInput, isOfflineMode: bool,
    mutate: UpdateEventLabelVariables -> Outcome<EventLabelPayload>): (r: Call<Option<EventLabelPayload>>)
    ensures var outcome := mutate(UpdateEventLabelVariables(id, input));
      && (r.Throws? <==> !isOfflineMode && outcome.Rejected?)
      && (r.Returns? && r.value.Some? ==> outcome == Resolved(r.value))
      && (outcome.Resolved? ==> r == Returns(outcome.payload))
  {
    ReturnPayload(mutate(UpdateEventLabelVariables(id, input)), isOfflineMode)
  }

  /** `deleteEventLabel`: `true` unless the mutation failed online, in which case the failure is rethrown. */
  function DeleteEventLabel(id: string, isOfflineMode: bool, mutate: string -> Outcome<DeletePayload>): (r: Call<bool>)
    ensures r.Returns? ==> r.value
    ensures r.Throws? <==> !isOfflineMode && mutate(id).Rejected?
  {
    ReturnTrue(mutate(id), isOfflineMode)
  }

  /** The variables of a create as the operation carries them. */
  function CreateVariablesJson(v: CreateEventLabelVariables): map<string, ApolloClient.Json> {
    map["input" := ApolloClient.JObj(map["name" := ApolloClient.JStr(v.name), "id" := ApolloClient.JStr(v.id)])]
  }

  /**
   * In offline mode the mock link answers a create from this hook with a
   * label carrying the typed name and the temporary id the wrapper sent.
   */
  lemma OfflineCreateKeepsTemporaryId(input: CreateEventLabelInput, uuid: string, now: nat, nowIso: string)
    ensures var payload := ApolloClient.MockCreateEventLabel(CreateVariablesJson(CreateVariables(input, uuid)), now, nowIso);
      && payload["id"] == ApolloClient.JStr(TempId(uuid))
      && payload["name"] == ApolloClient.JStr(input.name)
      && payload["__typename"] == ApolloClient.JStr(EVENT_LABEL_TYPENAME)
  {
  }

  /** The hook is loading exactly while some one of its three mutations is in flight. */
  function Loading(createIsLoading: bool, updateIsLoading: bool, deleteIsLoading: bool): (r: bool)
    ensures r <==> true in [createIsLoading, updateIsLoading, deleteIsLoading]
    ensures !r <==> !createIsLoading && !updateIsLoading && !deleteIsLoading
  {
    createIsLoading || updateIsLoading || deleteIsLoading
  }
}

=== FILE: use_loggable_events.dfy ===
/**
 * The `useLoggableEvents` hook: the optimistic responses of its five event
 * mutations, the cache `update` callbacks of create and delete, the wrappers
 * it returns and its aggregate loading flag. The uuid, the current time and
 * the awaited mutation are parameters, as in `UseEventLabels`.
 */
module UseLoggableEvents {
  import opened JsValues
  import opened ApolloCache
  import opened Mutations
  import LoggableEventCard
  import Seqs
  import ApolloClient

  type LoggableEventPayload = LoggableEventCard.LoggableEventFragment

  const LOGGABLE_EVENT_TYPENAME := "LoggableEvent"

  /** The input of a create or an update; threshold and label ids may be left out. */
  datatype LoggableEventInput = LoggableEventInput(
    name: string,
    warningThresholdInDays: Option<int>,
    labelIds: Option<seq<string>>)

  /** The variables a create sends: the caller's fields plus a temporary id. */
  datatype CreateLoggableEventVariables = CreateLoggableEventVariables(input: LoggableEventInput, id: string)
  datatype UpdateLoggableEventVariables = UpdateLoggableEventVariables(id: string, input: LoggableEventInput)
  /** The variables of adding or removing a record: the event id and the date as an ISO string. */
  datatype TimestampVariables = TimestampVariables(eventId: string, timestamp: string)

  /** `warningThresholdInDays || 0`: a missing threshold reads as 0, a given one as itself. */
  function ThresholdOrZero(warningThresholdInDays: Option<int>): (r: int)
    ensures warningThresholdInDays.None? ==> r == 0
    ensures warningThresholdInDays.Some? ==> r == warningThresholdInDays.value
  {
    if warningThresholdInDays.Some? && warningThresholdInDays.value != 0 then warningThresholdInDays.value else 0
  }

  /**
   * The event shown before the server answers a create: a temporary id, the
   * typed name, no records, the threshold or 0, the current time, no labels.
   */
  function OptimisticCreate(variables: CreateLoggableEventVariables, uuid: string, nowIso: string): (r: LoggableEventPayload)
    ensures StartsWith(r.id, TEMP_ID_PREFIX)
    ensures r.name == variables.input.name && r.timestamps == [] && r.createdAt == nowIso
    ensures r.warningThresholdInDays == variables.input.warningThresholdInDays.GetOr(0)
    ensures r.labels == Some([])
  {
    LoggableEventCard.LoggableEventFragment(
      TempId(uuid), variables.input.name, [], nowIso, ThresholdOrZero(variables.input.warningThresholdInDays), Some([]))
  }

  /** The event shown before the server answers an update: the same id, the new name and threshold or 0, no labels. */
  function OptimisticUpdate(variables: UpdateLoggableEventVariables, nowIso: string): (r: LoggableEventPayload)
    ensures r.id == variables.id && r.name == variables.input.name
    ensures r.warningThresholdInDays == variables.input.warningThresholdInDays.GetOr(0)
    ensures r.timestamps == [] && r.labels == Some([])
  {
    LoggableEventCard.LoggableEventFragment(
      variables.id, variables.input.name, [], nowIso, ThresholdOrZero(variables.input.warningThresholdInDays), Some([]))
  }

  /** The event shown before the server answers an added record: that event id carrying exactly the one new record. */
  function OptimisticAddTimestamp(variables: TimestampVariables, nowIso: string): (r: LoggableEventPayload)
    ensures r.id == variables.eventId && r.timestamps == [variables.timestamp]
    ensures r.name == "" && r.warningThresholdInDays == 0 && r.labels == Some([])
  {
    LoggableEventCard.LoggableEventFragment(variables.eventId, "", [variables.timestamp], nowIso, 0, Some([]))
  }

  /** The event shown before the server answers a removed record: that event id with no records. */
  function OptimisticRemoveTimestamp(variables: TimestampVariables, nowIso: string): (r: LoggableEventPayload)
    ensures r.id == variables.eventId && r.timestamps == []
    ensures r.name == "" && r.warningThresholdInDays == 0 && r.labels == Some([])
  {
    LoggableEventCard.LoggableEventFragment(variables.eventId, "", [], nowIso, 0, Some([]))
  }

  /**
   * A card built from the optimistic create shows the typed name, no records,
   * no labels, and no "days since" value yet.
   */
  lemma OptimisticCreateShowsEmptyCard(
    variables: CreateLoggableEventVariables, uuid: string, nowIso: string,
    parseDate: string -> int, currDate: int, daysBetween: (int, int) -> int)
    ensures var e := LoggableEventCard.CreateLoggableEventFromFragment(OptimisticCreate(variables, uuid, nowIso), parseDate);
      && e.name == variables.input.name
      && e.timestamps == []
      && e.labelIds == Some([])
      && LoggableEventCard.DaysSinceLastEvent(e.timestamps, currDate, daysBetween).None?
  {
  }

  /**
   * After a create: the new event is written to the cache and a reference to
   * it is appended at the end of the user's `loggableEvents`, the existing
   * references kept before it. Without a payload or a user id nothing changes.
   */
  function UpdateAfterCreate(c: Cache, payload: Option<LoggableEventPayload>, user: Option<User>): (r: Cache)
    ensures !CallbackApplies(payload, user) || user.value.id !in c.users ==> r == c
    ensures CallbackApplies(payload, user) && user.value.id in c.users ==>
      && r.users.Keys == c.users.Keys
      && r.users[user.value.id].loggableEvents == c.users[user.value.id].loggableEvents + [payload.value.id]
      && r.users[user.value.id].eventLabels == c.users[user.value.id].eventLabels
      && (forall u :: u in c.users && u != user.value.id ==> r.users[u] == c.users[u])
      && r.entities == c.entities + {EntityKey(LOGGABLE_EVENT_TYPENAME, payload.value.id)}
  {
    AfterCreate(c, LoggableEvents, LOGGABLE_EVENT_TYPENAME, if payload.Some? then Some(payload.value.id) else None, user)
  }

  /**
   * After a delete: every reference to the deleted id leaves the user's
   * `loggableEvents`, the others stay in order, and the event is evicted.
   * Without a payload or a user id nothing changes.
   */
  function UpdateAfterDelete(c: Cache, payload: Option<DeletePayload>, user: Option<User>): (r: Cache)
    ensures !CallbackApplies(payload, user) ==> r == c
    ensures CallbackApplies(payload, user) ==>
      && EntityKey(LOGGABLE_EVENT_TYPENAME, payload.value.id) !in r.entities
      && (forall k :: k in c.entities && k != EntityKey(LOGGABLE_EVENT_TYPENAME, payload.value.id) ==> k in r.entities)
      && r.users.Keys == c.users.Keys
      && (forall u :: u in c.users && u != user.value.id ==> r.users[u] == c.users[u])
    ensures CallbackApplies(payload, user) && user.value.id in c.users ==>
      var before := c.users[user.value.id];
      var after := r.users[user.value.id];
      && payload.value.id !in after.loggableEvents
      && (forall x :: x in after.loggableEvents <==> x in before.loggableEvents && x != payload.value.id)
      && Seqs.IsSubsequence(after.loggableEvents, before.loggableEvents)
      && (forall x :: x != payload.value.id ==> multiset(after.loggableEvents)[x] == multiset(before.loggableEvents)[x])
      && after.eventLabels == before.eventLabels
  {
    AfterDelete(c, LoggableEvents, LOGGABLE_EVENT_TYPENAME, if payload.Some? then Some(payload.value.id) else None, user)
  }

  /**
   * Deleting an event right after creating it, for the same user, gives back
   * the cache as it was, provided the event was not cached before.
   */
  lemma CreateThenDeleteRestoresCache(c: Cache, created: LoggableEventPayload, user: User)
    requires user.id != "" && user.id in c.users
    requires created.id !in c.users[user.id].loggableEvents
    requires EntityKey(LOGGABLE_EVENT_TYPENAME, created.id) !in c.entities
    ensures UpdateAfterDelete(UpdateAfterCreate(c, Some(created), Some(user)), Some(DeletePayload(created.id)), Some(user)) == c
  {
    DeleteUndoesCreate(c, LoggableEvents, LOGGABLE_EVENT_TYPENAME, created.id, user);
  }

  /** The variables a create sends: the caller's name, threshold and label ids, and a temporary id. */
  function CreateVariables(name: string, warningThresholdInDays: Option<int>, labelIds: Option<seq<string>>, uuid: string)
    : (r: CreateLoggableEventVariables)
    ensures r.input == LoggableEventInput(name, warningThresholdInDays, labelIds)
    ensures StartsWith(r.id, TEMP_ID_PREFIX)
  {
    CreateLoggableEventVariables(LoggableEventInput(name, warningThresholdInDays, labelIds), TempId(uuid))
  }

  /**
   * `createLoggableEvent`: sends the fields with a temporary id; returns the
   * created event, or `null` when the payload is missing or when the mutation
   * failed offline; rethrows a failure online.
   */
  function CreateLoggableEvent(
    name: string, warningThresholdInDays: Option<int>, labelIds: Option<seq<string>>, uuid: string, isOfflineMode: bool,
    mutate: CreateLoggableEventVariables -> Outcome<LoggableEventPayload>): (r: Call<Option<LoggableEventPayload>>)
    ensures var outcome := mutate(CreateVariables(name, warningThresholdInDays, labelIds, uuid));
      && (r.Throws? <==> !isOfflineMode && outcome.Rejected?)
      && (r.Returns? && r.value.Some? ==> outcome == Resolved(r.value))
      && (outcome.Resolved? ==> r == Returns(outcome.payload))
  {
    ReturnPayload(mutate(CreateVariables(name, warningThresholdInDays, labelIds, uuid)), isOfflineMode)
  }

  /** `updateLoggableEvent`: sends the id and input unchanged; same result rules as a create. */
  function UpdateLoggableEvent(
    id: string, input: LoggableEventInput, isOfflineMode: bool,
    mutate: UpdateLoggableEventVariables -> Outcome<LoggableEventPayload>): (r: Call<Option<LoggableEventPayload>>)
    ensures var outcome := mutate(UpdateLoggableEventVariables(id, input));
      && (r.Throws? <==> !isOfflineMode && outcome.Rejected?)
      && (r.Returns? && r.value.Some? ==> outcome == Resolved(r.value))
      && (outcome.Resolved? ==> r == Returns(outcome.payload))
  {
    ReturnPayload(mutate(UpdateLoggableEventVariables(id, input)), isOfflineMode)
  }

  /** `deleteLoggableEvent`: `true` unless the mutation failed online, in which case the failure is rethrown. */
  function DeleteLoggableEvent(id: string, isOfflineMode: bool, mutate: string -> Outcome<DeletePayload>): (r: Call<bool>)
    ensures r.Returns? ==> r.value
    ensures r.Throws? <==> !isOfflineMode && mutate(id).Rejected?
  {
    ReturnTrue(mutate(id), isOfflineMode)
  }

  /**
   * `addTimestampToEvent` and `removeTimestampFromEvent`: send the event id
   * and the date as an ISO string; same result rules as a create.
   */
  function ChangeTimestamp(
    eventId: string, timestamp: int, toIsoString: int -> string, isOfflineMode: bool,
    mutate: TimestampVariables -> Outcome<LoggableEventPayload>): (r: Call<Option<LoggableEventPayload>>)
    ensures var outcome := mutate(TimestampVariables(eventId, toIsoString(timestamp)));
      && (r.Throws? <==> !isOfflineMode && outcome.Rejected?)
      && (r.Returns? && r.value.Some? ==> outcome == Resolved(r.value))
      && (outcome.Resolved? ==> r == Returns(outcome.payload))
  {
    ReturnPayload(mutate(TimestampVariables(eventId, toIsoString(timestamp))), isOfflineMode)
  }

  /** The input of a create as the operation carries it; a field left out is `undefined`. */
  function CreateVariablesJson(v: CreateLoggableEventVariables): map<string, ApolloClient.Json> {
    var threshold := if v.input.warningThresholdInDays.Some? then ApolloClient.JNum(v.input.warningThresholdInDays.value)
      else ApolloClient.JUndefined;
    var labelIds := if v.input.labelIds.Some? then ApolloClient.JArr(Seqs.Map((id: string) => ApolloClient.JStr(id), v.input.labelIds.value))
      else ApolloClient.JUndefined;
    map["input" := ApolloClient.JObj(map[
      "name" := ApolloClient.JStr(v.input.name),
      "warningThresholdInDays" := threshold,
      "labelIds" := labelIds,
      "id" := ApolloClient.JStr(v.id)])]
  }

  /**
   * In offline mode the mock link answers a create from this hook with an
   * event carrying the temporary id the wrapper sent and the typed name, and
   * with no labels, whatever label ids were sent.
   */
  lemma OfflineCreateKeepsTemporaryId(
    name: string, warningThresholdInDays: Option<int>, labelIds: Option<seq<string>>, uuid: string, now: nat, nowIso: string)
    ensures var payload := ApolloClient.MockCreateLoggableEvent(
        CreateVariablesJson(CreateVariables(name, warningThresholdInDays, labelIds, uuid)), now, nowIso);
      && payload["id"] == ApolloClient.JStr(TempId(uuid))
      && payload["name"] == ApolloClient.JStr(name)
      && payload["labels"] == ApolloClient.JArr([])
      && "labelIds" in payload
  {
  }

  /** The per-mutation loading flags of the hook. */
  datatype LoadingFlags = LoadingFlags(
    createIsLoading: bool,
    updateIsLoading: bool,
    deleteIsLoading: bool,
    addTimestampIsLoading: bool,
    removeTimestampIsLoading: bool)

  function FlagList(flags: LoadingFlags): seq<bool> {
    [flags.createIsLoading, flags.updateIsLoading, flags.deleteIsLoading,
     flags.addTimestampIsLoading, flags.removeTimestampIsLoading]
  }

  /** The hook is loading exactly while some one of its five mutations is in flight. */
  function Loading(flags: LoadingFlags): (r: bool)
    ensures r <==> true in FlagList(flags)
    ensures !r <==> flags == LoadingFlags(false, false, false, false, false)
  {
    flags.createIsLoading || flags.updateIsLoading || flags.deleteIsLoading
    || flags.addTimestampIsLoading || flags.removeTimestampIsLoading
  }
}
